=== FILE: README.md ===
# Three.js binary model codec, in Dafny

This project models the reader and writer of the Three.js binary model
container ("Three.js 002") implemented in `3jsbin.go`, and proves properties
of that model with Dafny.

A container is a 64-byte header followed by a body:

- the header carries a 12-byte signature, the one-byte header size, seven
  one-byte element widths and eleven little-endian 32-bit counts
  (vertices, normals, UVs, and one count per face-group variant);
- the body holds the vertex coordinates (3 words each), the normals (3
  signed bytes each, then filler), the UVs (2 words each) and then, in a
  fixed order, the eight face-group variants (flat, smooth, UV and
  smooth-UV triangles and quads). Each variant that has a non-zero count
  stores its vertex indices, its material indices (16 bits each) and,
  where the variant has them, normal and UV indices, followed by filler.
  The filler is meant to bring each section to a multiple of four bytes;
  what is actually written and skipped is described below.

The model keeps the behaviour of the Go code, including its irregularities:

- Quads are flattened and re-read with a stride of 3 words even though each
  quad has 4 indices. A quad list therefore survives a flatten/unflatten
  round trip only when each quad's fourth index equals the next quad's first
  (`Tuples.Chained`).
- `writePading` emits `p` zero bytes followed by `p` ASCII `'0'` bytes, i.e.
  twice the requested padding. The decoder skips only `p`. A file is proved
  to read back when no section needs padding (`Bin.RoundTrip`, under
  `Bin.Aligned`). `Bin.FillerLeftUnread` shows exactly what is left behind
  otherwise, and `Layout.NormalFillerMisreadsUVs` shows that filler after
  the normals is then read as the start of the UVs.
- The decoder skips no padding after the last face-group variant; the
  encoder writes it.
- The decoder checks only the first five signature bytes. The encoder
  rebuilds the header whenever the full 12-byte signature differs.
- Setter inputs of an unrecognised shape are ignored without error.

Go's `uint32` arithmetic is modelled explicitly: products such as
`count*3` wrap modulo 2^32 (`Numeric.U32Mul`), and slice lengths converted
with `uint32(len(...))` wrap too (`Numeric.U32Len`). Float coordinates are
carried as opaque 32-bit words, since the codec only copies them. A reader
is modelled as the sequence of bytes not yet read; a seek past the end
leaves the empty sequence, so that, as with the Go seeker, a later read of
one or more bytes fails while a read of zero bytes still succeeds. A writer is modelled as the sequence of bytes produced.

Modules:

- `Numeric`: integer widths, wrap-around, little-endian encodings.
- `Outcome`: the error kinds and `Result`.
- `Tuples`: flattening of tuple lists with a given stride, the inverse
  gather, and the shared `Set*` logic for flat/nested/fixed inputs.
- `Padding`: `handlePadding` and `writePading`.
- `Headers`: the header record, its defaults and its 64-byte layout.
- `Stream`: reads from the remaining bytes.
- `FaceGroups`: the eight variants, with their getters, setters, encode and
  decode.
- `Bin`: the whole object: setters/getters, header setup, `Encode`,
  `Decode` and the round-trip theorems.
- `Layout`: where each section lies in an encoded file, and which byte
  strings `Decode` accepts and where it reads each section from.

## Model

| member | source | states |
|---|---|---|
| Numeric.U32Mul | 3jsbin.go:957 | a `uint32` count times a constant wraps modulo 2^32, equals the true product when that fits, and keeps its residue modulo 4 |
| Numeric.U32sRoundTrip | 3jsbin.go:14-16 | little-endian 32-bit words written by `binary.Write` are read back unchanged by `binary.Read` |
| Numeric.U32sBytesOf | 3jsbin.go:14-16 | every multiple-of-four byte string is the little-endian encoding of the words read from it |
| Numeric.I16sRoundTrip | 3jsbin.go:14-16 | two's-complement little-endian int16 material indices survive a write/read |
| Padding.HandlePadding | 3jsbin.go:940-945 | the padding for n bytes is at most 3, brings n to a multiple of four, and is zero exactly when n already is one |
| Padding.WritePadding | 3jsbin.go:1087-1094 | a requested padding p produces 2p bytes: p zero bytes, then p ASCII '0' bytes |
| Headers.SetDefault | 3jsbin.go:772-799 | the default header has the "Three.js 002" signature, a 64-byte header size and every count zero |
| Headers.DefaultWidthsMatchEncodings | 3jsbin.go:772-799 | the default width fields equal the byte widths the codec really uses: 4 for coordinates and indices, 1 for normal coordinates, 2 for material indices |
| Headers.Write | 3jsbin.go:744-770 | the header is 64 bytes: signature, the eight width bytes, then the eleven counts as little-endian words |
| Headers.Read | 3jsbin.go:949 | the signature, the eight width bytes and the eleven counts are taken from bytes 0-11, 12-19 and 20-63 in that order, the counts as little-endian words |
| Headers.ReadWrite | 3jsbin.go:744-770 | reading a written header gives back the same header |
| Headers.WriteRead | 3jsbin.go:744-770 | every 64-byte block is the encoding of the header read from it |
| Stream.Skip | 3jsbin.go:980 | a relative seek drops the skipped bytes, and past the end leaves nothing to read |
| Stream.ReadU32s | 3jsbin.go:957-961 | reading n words succeeds exactly when 4n bytes remain, yields n words and leaves the bytes after them |
| Stream.ReadI16s | 3jsbin.go:66-67 | reading n int16 material indices succeeds exactly when 2n bytes remain, yields n values and leaves the bytes after them; a short read is an I/O error |
| Stream.ReadI8s | 3jsbin.go:967-968 | reading n int8 normal coordinates succeeds exactly when n bytes remain, yields n values and leaves the bytes after them; a short read is an I/O error |
| Stream.ReadU32sPrefix | 3jsbin.go:957-961 | reading back words from their own encoding followed by anything yields those words and leaves exactly what followed |
| Stream.ReadI8sPrefix | 3jsbin.go:967-971 | the same for the int8 normal coordinates |
| Tuples.Assign | 3jsbin.go:78-101 | a flat input fails with an invalid-length error exactly when its length is not a multiple of the arity; a fixed-width input is taken as is; an unrecognised input leaves the field unchanged |
| Tuples.ScatterDense | 3jsbin.go:838-846 | flattening with a stride equal to the arity is plain concatenation of the tuples |
| Tuples.ScatterSlots | 3jsbin.go:379-388 | each flattened word is the one written last into that slot by the overlapping windows |
| Tuples.GatherConcat | 3jsbin.go:867-878 | unflattening a concatenation restores the tuple list |
| Tuples.ConcatGather | 3jsbin.go:838-878 | concatenating an unflattened multiple-of-arity list gives back the flat list |
| Tuples.ShapesAgree | 3jsbin.go:78-101 | when the stride equals the arity, a flat input and its nested or fixed-width form set the same tuples |
| Tuples.QuadScatter | 3jsbin.go:379-388 | a flattened quad list holds each quad's first three indices at 3i, the last quad's fourth index at 3n, and zeros after it |
| Tuples.QuadScatterForm | 3jsbin.go:379-388 | a non-empty quad list flattens to the first three indices of every quad, then the last quad's fourth index, then zeros |
| Tuples.QuadGatherScatter | 3jsbin.go:434-446 | re-reading a flattened quad list gives each quad with its fourth index replaced by the next quad's first |
| Tuples.QuadRoundTripIff | 3jsbin.go:379-446 | a quad list survives flatten then unflatten if and only if each quad's fourth index equals the next quad's first |
| Tuples.QuadShapesDisagree | 3jsbin.go:434-459 | for quads, a flat input and the fixed-width input with the same tuples set different values |
| FaceGroups.Arity | 3jsbin.go:18-21 | every variant's tuples have at least as many indices as the flattening stride |
| FaceGroups.GetVertices | 3jsbin.go:23-31 | the flat vertex list has 3 words per tuple; for triangles it is the concatenation of the triples; for quads it is each quad's first three indices, then the last quad's fourth index, then zeros |
| FaceGroups.GetNormals | 3jsbin.go:118-126 | the same for the normal indices (3jsbin.go:476-485 for quads) |
| FaceGroups.GetUvs | 3jsbin.go:188-196 | the same for the UV indices (3jsbin.go:549-558 for quads) |
| FaceGroups.SetVertices | 3jsbin.go:78-101 | a flat input fails exactly when its length is not a multiple of the arity; otherwise only the vertices change; an unrecognised input changes nothing |
| FaceGroups.SetNormals | 3jsbin.go:158-181 | the same for the normal indices of the smooth variants |
| FaceGroups.SetUVs | 3jsbin.go:228-251 | the same for the UV indices of the UV variants |
| FaceGroups.SetMaterial | 3jsbin.go:103-111 | an `[]int16` input replaces the material list and nothing else; any other input fails with a type error |
| FaceGroups.Encode | 3jsbin.go:279-295 | encoding fails with a length-mismatch error exactly when the vertex and material lists differ in length |
| FaceGroups.ReadTuples | 3jsbin.go:55-65 | reading `size` tuples needs 4·(size·arity mod 2^32) bytes and a wrapped length divisible by the arity, and gives `size` tuples when nothing wraps |
| FaceGroups.Decode | 3jsbin.go:297-322 | a decoded group has the variant's shape and exactly `size` material indices |
| FaceGroups.DecodeConsumes | 3jsbin.go:663-688 | decoding succeeds exactly when the whole block fits, and consumes exactly the block |
| FaceGroups.ReloadedIdentity | 3jsbin.go:379-459 | flattening then unflattening a group's fields changes nothing exactly when every quad field is chained |
| FaceGroups.SetGetVertices | 3jsbin.go:379-459 | setting the vertices from their own flat form succeeds, and restores the group exactly when a quad list is chained |
| FaceGroups.SetGetNormals | 3jsbin.go:476-542 | the same for normal indices |
| FaceGroups.SetGetUvs | 3jsbin.go:549-615 | the same for UV indices |
| FaceGroups.DecodeEncode | 3jsbin.go:645-688 | decoding an encoded consistent group, followed by anything, gives back the group as re-read through the stride-3 flattening and leaves exactly what followed |
| Bin.GetVectilers | 3jsbin.go:838-846 | the flat vertex list is the concatenation of the vertex triples |
| Bin.GetNormals | 3jsbin.go:848-856 | the flat normal list is the concatenation of the normal triples |
| Bin.GetUVs | 3jsbin.go:858-865 | the flat UV list is the concatenation of the UV pairs |
| Bin.SetVectilers | 3jsbin.go:867-890 | a flat input fails exactly when its length is not a multiple of 3; otherwise only the vertices change; an unrecognised input changes nothing |
| Bin.SetNormals | 3jsbin.go:892-915 | the same for the int8 normal triples |
| Bin.SetUVs | 3jsbin.go:917-938 | the same for UV pairs, with a multiple of 2 |
| Bin.SetGetArrays | 3jsbin.go:838-938 | setting each array from its own flat form leaves the object unchanged |
| Bin.GetSetArrays | 3jsbin.go:838-938 | after setting an array from a flat list of the right length, getting it returns that list |
| Bin.SetupHeader | 3jsbin.go:801-817 | the rebuilt header is the default apart from its counts, which are the array and material lengths (modulo 2^32) |
| Bin.Setup | 3jsbin.go:834-836 | setup installs the full signature and changes nothing but the header |
| Bin.SetupIdempotent | 3jsbin.go:801-836 | setting up twice is the same as setting up once |
| Bin.EffectiveHeader | 3jsbin.go:1097-1099 | the header written is the object's own when its signature is exactly "Three.js 002", and the rebuilt one otherwise |
| Bin.PaddingAfter | 3jsbin.go:1115-1123 | after a section of n bytes the encoder emits twice the padding `handlePadding` computes |
| Bin.GroupBlock | 3jsbin.go:1130-1143 | a group record fails exactly when its vertex and material lists differ in length |
| Bin.EncodeGroups | 3jsbin.go:1130-1254 | writing the records fails, with a length mismatch, exactly when some record with a non-zero count has mismatched vertex and material lists |
| Bin.EncodeBody | 3jsbin.go:1105-1254 | writing the body fails exactly when some variant with a non-zero count has vertex and material lists of different lengths |
| Bin.Encode | 3jsbin.go:1096-1257 | encoding fails exactly when a counted record is mismatched, and otherwise starts with the 64-byte encoding of the header it writes, which carries the full signature |
| Bin.SkipPadding | 3jsbin.go:977-982 | the decoder skips `handlePadding(n)` bytes, nothing when none is needed, and everything when fewer remain |
| Bin.DecodeGroup | 3jsbin.go:994-1004 | a record with count zero is left at its zero value and consumes nothing; a decoded record has the variant's shape and `count` material indices |
| Bin.DecodeGroups | 3jsbin.go:994-1083 | every decoded record matches its header count |
| Bin.AllCountedAt | 3jsbin.go:994-1083 | the decoded records are the eight variants, each matching its count |
| Bin.DecodeBody | 3jsbin.go:957-1083 | a decoded body has the object's shape and keeps the header it was read with |
| Bin.Decode | 3jsbin.go:947-1085 | fewer than 64 bytes is an I/O error; a first-five-byte signature mismatch is rejected; a decoded object has the header read from the first 64 bytes |
| Bin.GroupRoundTrip | 3jsbin.go:994-1083 | a record with a non-zero count equal to its material length, consistent field lengths that do not wrap, chained quad fields, and an even count unless it is the last variant, encoded then decoded gives back the record; only for the last variant is the trailing filler left unread |
| Bin.GroupsRoundTrip | 3jsbin.go:1130-1254 | the records encoded then decoded give back all records when each count equals its record's material length, every record is consistent and has chained quad fields, and the first seven counts are even so that no record but the last needs padding |
| Bin.ReadU32Array | 3jsbin.go:957-965 | reading `count` vertex (or UV) tuples succeeds exactly when 4·(count·arity mod 2^32) bytes remain and that wrapped length is a multiple of the arity, and yields the words grouped into tuples and the bytes after them |
| Bin.ReadI8Array | 3jsbin.go:967-975 | the same for the normal triples, one byte per coordinate |
| Bin.U32ArrayRoundTrip | 3jsbin.go:957-965 | a vertex (or UV) section written from tuples, followed by anything, is read back by `ReadU32Array` as the same tuples, leaving exactly what followed |
| Bin.I8ArrayRoundTrip | 3jsbin.go:967-975 | the same for the normal section and `ReadI8Array` |
| Bin.NormalsNoPadding | 3jsbin.go:977-982 | a normal count divisible by four needs no filler |
| Bin.BodyRoundTrip | 3jsbin.go:1105-1254 | a body whose header counts agree with its contents (without wrapping), whose normal count is a multiple of four and first seven record counts are even, and whose quad fields are chained decodes back to the same object |
| Bin.RoundTrip | 3jsbin.go:947-1257 | an object whose header counts agree with its contents, needs no filler and has chained quads encodes, and decodes back to itself with the header the encoder wrote |
| Bin.SetupAgrees | 3jsbin.go:801-817 | the rebuilt header's counts agree with the object whenever nothing wraps and every record is consistent |
| Bin.FreshRoundTrip | 3jsbin.go:1096-1099 | an object without the full signature encodes and decodes back as its set-up form, provided its array lengths do not wrap, every record is consistent, its normal count is a multiple of four, the first seven records have even counts, and its quad fields are chained |
| Bin.PrefixOnlySignatureRewritten | 3jsbin.go:953-955 | a file accepted on its five-byte prefix whose full signature differs is re-encoded with a different signature |
| Bin.FillerLeftUnread | 3jsbin.go:1087-1094 | after the decoder's skip over the encoder's filler, exactly `handlePadding(n)` '0' bytes remain before the next section, and that is non-zero exactly when n is not a multiple of four |
| Layout.EncodeLayout | 3jsbin.go:1096-1257 | an encoded file is the header, then the vertex words, the normal bytes, the filler after the normals, the UV words and the face-group records, each at the offset the preceding sections' sizes give |
| Layout.GroupsLayout | 3jsbin.go:1130-1254 | the records part is the concatenation, in variant order, of each counted record's block and padding, with nothing for a record whose count is zero |
| Layout.RecordStep | 3jsbin.go:994-1004 | when no record's element count wraps, reading one record fails exactly when its count is non-zero and its block does not fit; otherwise it skips the block and, except after the last variant, the padding |
| Layout.DecodeGroupsConsumes | 3jsbin.go:994-1083 | when no record's element count wraps, reading the records succeeds exactly when every counted block fits at its offset, and each record is then the group decoded from that offset |
| Layout.BodySteps | 3jsbin.go:957-1083 | a body reads the vertices at its start, the normals after them, the UVs after the skipped normal padding, and the records after the UVs, and fails exactly when one of these reads fails |
| Layout.ArraysFit | 3jsbin.go:957-992 | the vertex, normal and UV reads all succeed exactly when the bytes they need are present and their wrapped lengths are multiples of the arities |
| Layout.DecodeBodyConsumes | 3jsbin.go:957-1083 | when no record count wraps, a body is accepted exactly when its arrays fit and every counted record fits at its offset after the UVs |
| Layout.DecodeLayout | 3jsbin.go:947-1085 | the same for a whole file with an accepted signature prefix, the body starting at byte 64 |
| Layout.NormalFillerMisreadsUVs | 3jsbin.go:977-992 | an object whose header agrees with it, whose normal count is not a multiple of four and whose first UV word does not begin with a '0' byte encodes, but does not decode back to itself: the UV read starts inside the filler the encoder writes after the normals |

## Left out

- The JSON metadata sidecar (`Metadata` and its functions, 3jsbin.go:1259-1290) is not part of this model.
- mst.go, topology.go, material.go and 3jsbin_test.go are not part of this model: they lie outside the binary codec.
- Write errors from the underlying writer, and the bytes already written before an error, are not modelled: `Encode` returns either the complete output or an error.
- Float coordinates are modelled as the 32-bit words they are stored as; no floating-point arithmetic is done on them.
- `Setup` mutates the caller's header inside `Encode`; the model returns the header it writes instead (`Bin.EffectiveHeader`) and leaves the object unchanged.
- A `[][]T` setter input whose rows are shorter than the arity panics in Go; the setters require rows at least as long as the arity (`Tuples.Admissible`).
- Bytes after the last record are never read by the decoder and are ignored by the model too.
- FaceGroups.Decode: states the shape of a decoded group; which inputs it accepts and what it consumes is stated by `FaceGroups.DecodeConsumes` when nothing wraps.
- Bin.RoundTrip: proved only for objects that need no filler; with filler the decoder leaves part of the encoder's doubled padding unread (`Bin.FillerLeftUnread`), and after the normals that breaks the round trip (`Layout.NormalFillerMisreadsUVs`).

=== FILE: bin.dfy ===
/** The container: the header, the vertex, normal and UV arrays, and the
    eight face-group records, with the two orchestrators that fix the order
    of the sections and where padding goes. */
module Bin {
  import opened Numeric
  import opened Outcome
  import opened Tuples
  import opened Padding
  import opened Stream
  import Headers
  import FaceGroups

  /** Binobj. Vertex and UV components are float32 values carried as
      32-bit words; normal components are int8. */
  datatype Binobj = Binobj(
    header: Headers.Header,
    vectilers: seq<seq<u32>>,
    normals: seq<seq<i8>>,
    uvs: seq<seq<u32>>,
    groups: seq<FaceGroups.FaceGroup>)

  const VERTEX_ARITY: nat := 3
  const NORMAL_ARITY: nat := 3
  const UV_ARITY: nat := 2

  /** What the Go struct's types guarantee: [3]/[3]/[2] rows, one record
      per variant in stream order, and a header of the packed shape. */
  ghost predicate Shaped(obj: Binobj) {
    && Headers.Shaped(obj.header)
    && Rows(obj.vectilers, VERTEX_ARITY)
    && Rows(obj.normals, NORMAL_ARITY)
    && Rows(obj.uvs, UV_ARITY)
    && GroupsShaped(obj.groups)
  }

  ghost predicate GroupsShaped(groups: seq<FaceGroups.FaceGroup>) {
    && |groups| == 8
    && forall i :: 0 <= i < 8 ==> FaceGroups.Shaped(FaceGroups.Order[i], groups[i])
  }

  // ---- Get* / Set* of the three arrays (stride equals arity) ----

  function GetVectilers(obj: Binobj): (r: seq<u32>)
    requires Rows(obj.vectilers, VERTEX_ARITY)
    ensures r == Concat(obj.vectilers)
  {
    ScatterDense(obj.vectilers, VERTEX_ARITY, 0);
    Scatter(obj.vectilers, VERTEX_ARITY, VERTEX_ARITY, 0)
  }

  function GetNormals(obj: Binobj): (r: seq<i8>)
    requires Rows(obj.normals, NORMAL_ARITY)
    ensures r == Concat(obj.normals)
  {
    ScatterDense(obj.normals, NORMAL_ARITY, 0);
    Scatter(obj.normals, NORMAL_ARITY, NORMAL_ARITY, 0)
  }

  function GetUVs(obj: Binobj): (r: seq<u32>)
    requires Rows(obj.uvs, UV_ARITY)
    ensures r == Concat(obj.uvs)
  {
    ScatterDense(obj.uvs, UV_ARITY, 0);
    Scatter(obj.uvs, UV_ARITY, UV_ARITY, 0)
  }

  function SetVectilers(obj: Binobj, input: Shape<u32>): (r: Result<Binobj>)
    requires Rows(obj.vectilers, VERTEX_ARITY) && Admissible(input, VERTEX_ARITY)
    ensures r.Err? <==> input.Flat? && |input.items| % VERTEX_ARITY != 0
    ensures r.Err? ==> r.error == InvalidLength
    ensures r.Ok? ==> Rows(r.value.vectilers, VERTEX_ARITY) && r.value == obj.(vectilers := r.value.vectilers)
    ensures input.Unrecognized? ==> r == Ok(obj)
  {
    var vs :- Assign(obj.vectilers, input, VERTEX_ARITY, VERTEX_ARITY);
    Ok(obj.(vectilers := vs))
  }

  function SetNormals(obj: Binobj, input: Shape<i8>): (r: Result<Binobj>)
    requires Rows(obj.normals, NORMAL_ARITY) && Admissible(input, NORMAL_ARITY)
    ensures r.Err? <==> input.Flat? && |input.items| % NORMAL_ARITY != 0
    ensures r.Err? ==> r.error == InvalidLength
    ensures r.Ok? ==> Rows(r.value.normals, NORMAL_ARITY) && r.value == obj.(normals := r.value.normals)
    ensures input.Unrecognized? ==> r == Ok(obj)
  {
    var ns :- Assign(obj.normals, input, NORMAL_ARITY, NORMAL_ARITY);
    Ok(obj.(normals := ns))
  }

  function SetUVs(obj: Binobj, input: Shape<u32>): (r: Result<Binobj>)
    requires Rows(obj.uvs, UV_ARITY) && Admissible(input, UV_ARITY)
    ensures r.Err? <==> input.Flat? && |input.items| % UV_ARITY != 0
    ensures r.Err? ==> r.error == InvalidLength
    ensures r.Ok? ==> Rows(r.value.uvs, UV_ARITY) && r.value == obj.(uvs := r.value.uvs)
    ensures input.Unrecognized? ==> r == Ok(obj)
  {
    var us :- Assign(obj.uvs, input, UV_ARITY, UV_ARITY);
    Ok(obj.(uvs := us))
  }

  /** Setting the flat slice a getter returned restores the array. */
  lemma SetGetArrays(obj: Binobj)
    requires Rows(obj.vectilers, VERTEX_ARITY) && Rows(obj.normals, NORMAL_ARITY) && Rows(obj.uvs, UV_ARITY)
    ensures SetVectilers(obj, Flat(GetVectilers(obj))) == Ok(obj)
    ensures SetNormals(obj, Flat(GetNormals(obj))) == Ok(obj)
    ensures SetUVs(obj, Flat(GetUVs(obj))) == Ok(obj)
  {
    GatherConcat(obj.vectilers, VERTEX_ARITY);
    GatherConcat(obj.normals, NORMAL_ARITY);
    GatherConcat(obj.uvs, UV_ARITY);
  }

  /** Getting after setting a flat slice of whole tuples returns the slice. */
  lemma GetSetArrays(obj: Binobj, vs: seq<u32>, ns: seq<i8>, us: seq<u32>)
    requires Rows(obj.vectilers, VERTEX_ARITY) && Rows(obj.normals, NORMAL_ARITY) && Rows(obj.uvs, UV_ARITY)
    requires |vs| % VERTEX_ARITY == 0 && |ns| % NORMAL_ARITY == 0 && |us| % UV_ARITY == 0
    ensures GetVectilers(SetVectilers(obj, Flat(vs)).value) == vs
    ensures GetNormals(SetNormals(obj, Flat(ns)).value) == ns
    ensures GetUVs(SetUVs(obj, Flat(us)).value) == us
  {
    ConcatGather(vs, VERTEX_ARITY);
    ConcatGather(ns, NORMAL_ARITY);
    ConcatGather(us, UV_ARITY);
  }

  // ---- header setup ----

  /** Header.setup: the defaults, then the three array lengths and each
      record's material length, each converted with uint32(...). */
  function SetupHeader(obj: Binobj): (h: Headers.Header)
    requires |obj.groups| == 8
    ensures Headers.Shaped(h) && h.signature == Headers.SIGNATURE
    ensures h.(verticeCount := 0, normalCount := 0, uvCount := 0, faceCounts := Headers.SetDefault().faceCounts)
            == Headers.SetDefault()
    ensures |obj.vectilers| < TWO_32 ==> h.verticeCount == |obj.vectilers|
    ensures |obj.normals| < TWO_32 ==> h.normalCount == |obj.normals|
    ensures |obj.uvs| < TWO_32 ==> h.uvCount == |obj.uvs|
    ensures forall i :: 0 <= i < 8 && |obj.groups[i].material| < TWO_32 ==>
              h.faceCounts[i] == |obj.groups[i].material|
  {
    Headers.SetDefault().(
      verticeCount := U32Len(obj.vectilers),
      normalCount := U32Len(obj.normals),
      uvCount := U32Len(obj.uvs),
      faceCounts := seq(8, i requires 0 <= i < 8 => U32Len(obj.groups[i].material)))
  }

  /** Binobj.Setup: recompute the header from the arrays. */
  function Setup(obj: Binobj): (r: Binobj)
    requires |obj.groups| == 8
    ensures r.header.signature == Headers.SIGNATURE
    ensures r == obj.(header := r.header)
  {
    obj.(header := SetupHeader(obj))
  }

  /** Setup depends only on the arrays, so doing it twice changes nothing. */
  lemma SetupIdempotent(obj: Binobj)
    requires |obj.groups| == 8
    ensures Setup(Setup(obj)) == Setup(obj)
  {
    var s := Setup(obj);
    assert s.vectilers == obj.vectilers && s.normals == obj.normals && s.uvs == obj.uvs;
    assert s.groups == obj.groups;
  }

  /** The header Encode writes: the object's own when its full 12-byte
      signature is the expected one, otherwise a freshly set-up one. */
  function EffectiveHeader(obj: Binobj): (h: Headers.Header)
    requires Shaped(obj)
    ensures Headers.Shaped(h) && h.signature == Headers.SIGNATURE
    ensures obj.header.signature == Headers.SIGNATURE ==> h == obj.header
    ensures obj.header.signature != Headers.SIGNATURE ==> h == SetupHeader(obj)
  {
    if obj.header.signature != Headers.SIGNATURE then SetupHeader(obj) else obj.header
  }

  // ---- encode ----

  /** Filler after a section of n bytes: writePading(handlePadding(n)),
      skipped when there is nothing to pad. */
  function PaddingAfter(n: u32): (r: seq<byte>)
    ensures |r| == 2 * HandlePadding(n)
  {
    var p := HandlePadding(n);
    if p > 0 then WritePadding(p) else []
  }

  /** One record block as Encode writes it: the record, then filler for
      the count*2 material bytes. */
  function GroupBlock(v: FaceGroups.Variant, g: FaceGroups.FaceGroup, count: u32): (r: Result<seq<byte>>)
    requires FaceGroups.Shaped(v, g)
    ensures r.Err? <==> |g.vertices| != |g.material|
    ensures r.Err? ==> r.error == LengthMismatch
  {
    var block :- FaceGroups.Encode(v, g);
    Ok(block + PaddingAfter(U32Mul(count, 2)))
  }

  /** Some record from index i on is counted but mismatched exactly when
      record i is, or some record from i + 1 on is. */
  lemma MismatchStep(groups: seq<FaceGroups.FaceGroup>, counts: seq<u32>, i: nat)
    requires GroupsShaped(groups) && |counts| == 8 && i < 8
    ensures (exists j :: i <= j < 8 && counts[j] > 0 && |groups[j].vertices| != |groups[j].material|)
            <==> ((counts[i] > 0 && |groups[i].vertices| != |groups[i].material|)
                  || exists j :: i + 1 <= j < 8 && counts[j] > 0 && |groups[j].vertices| != |groups[j].material|)
  {
    if exists j :: i <= j < 8 && counts[j] > 0 && |groups[j].vertices| != |groups[j].material| {
      var j :| i <= j < 8 && counts[j] > 0 && |groups[j].vertices| != |groups[j].material|;
      if j > i {
        assert i + 1 <= j;
      }
    }
  }

  /** The records from index i on, each written when its header count is
      nonzero, each followed by its filler, the last one included. */
  function EncodeGroups(groups: seq<FaceGroups.FaceGroup>, counts: seq<u32>, i: nat): (r: Result<seq<byte>>)
    requires GroupsShaped(groups) && |counts| == 8 && i <= 8
    ensures r.Err? <==> exists j :: i <= j < 8 && counts[j] > 0 && |groups[j].vertices| != |groups[j].material|
    ensures r.Err? ==> r.error == LengthMismatch
    decreases 8 - i
  {
    if i == 8 then Ok([])
    else
      MismatchStep(groups, counts, i);
      if counts[i] == 0 then EncodeGroups(groups, counts, i + 1)
      else
        var block :- GroupBlock(FaceGroups.Order[i], groups[i], counts[i]);
        var more :- EncodeGroups(groups, counts, i + 1);
        Ok(block + more)
  }

  /** Everything after the header: vertex words, normal bytes, their filler
      when there are normals, UV words, then the records. */
  function EncodeBody(obj: Binobj, h: Headers.Header): (r: Result<seq<byte>>)
    requires Shaped(obj) && Headers.Shaped(h)
    ensures r.Err? <==> exists j :: 0 <= j < 8 && h.faceCounts[j] > 0
                                  && |obj.groups[j].vertices| != |obj.groups[j].material|
  {
    var groups :- EncodeGroups(obj.groups, h.faceCounts, 0);
    Ok(U32sBytes(GetVectilers(obj))
       + (I8sBytes(GetNormals(obj))
       + ((if h.normalCount > 0 then PaddingAfter(U32Mul(h.normalCount, 3)) else [])
       + (U32sBytes(GetUVs(obj))
       + groups))))
  }

  /** Encode. Whatever header the object carries, the output starts with
      the full expected signature. */
  function Encode(obj: Binobj): (r: Result<seq<byte>>)
    requires Shaped(obj)
    ensures r.Err? <==> exists j :: 0 <= j < 8 && EffectiveHeader(obj).faceCounts[j] > 0
                                  && |obj.groups[j].vertices| != |obj.groups[j].material|
    ensures r.Err? ==> r.error == LengthMismatch
    ensures r.Ok? ==> |r.value| >= Headers.HEADER_SIZE && r.value[..12] == Headers.SIGNATURE
    ensures r.Ok? ==> r.value[..Headers.HEADER_SIZE] == Headers.Write(EffectiveHeader(obj))
  {
    var h := EffectiveHeader(obj);
    var body :- EncodeBody(obj, h);
    var w := Headers.Write(h);
    assert (w + body)[..Headers.HEADER_SIZE] == w;
    assert (w + body)[..12] == w[..12];
    Ok(w + body)
  }

  // ---- decode ----

  /** Seek past the filler of a section of n bytes, when there is any. */
  function SkipPadding(rest: seq<byte>, n: u32): (r: seq<byte>)
    ensures HandlePadding(n) == 0 ==> r == rest
    ensures HandlePadding(n) <= |rest| ==> r == rest[HandlePadding(n)..]
    ensures HandlePadding(n) > |rest| ==> r == []
  {
    var p := HandlePadding(n);
    if p > 0 then Skip(rest, p) else rest
  }

  /** What a decoded record holds for its header count: nothing when the
      count is zero, otherwise one material per counted face. */
  ghost predicate Counted(v: FaceGroups.Variant, g: FaceGroups.FaceGroup, count: u32) {
    && FaceGroups.Shaped(v, g)
    && (count == 0 ==> g == FaceGroups.Empty)
    && (count > 0 ==> |g.material| == count)
  }

  /** One record at its place in the stream: left at its zero value,
      consuming nothing, when its count is zero; otherwise read and, unless
      it is the last record, followed by a skip over its filler. */
  function DecodeGroup(v: FaceGroups.Variant, rest: seq<byte>, count: u32, last: bool)
    : (r: Result<(FaceGroups.FaceGroup, seq<byte>)>)
    ensures r.Ok? ==> Counted(v, r.value.0, count)
    ensures count == 0 ==> r == Ok((FaceGroups.Empty, rest))
  {
    if count == 0 then Ok((FaceGroups.Empty, rest))
    else
      var (g, rest1) :- FaceGroups.Decode(v, rest, count);
      Ok((g, if last then rest1 else SkipPadding(rest1, U32Mul(count, 2))))
  }

  /** Every record from index i on is Counted for its variant and count. */
  ghost predicate AllCounted(gs: seq<FaceGroups.FaceGroup>, counts: seq<u32>, i: nat)
    requires |counts| == 8 && i <= 8
    decreases 8 - i
  {
    && |gs| == 8 - i
    && (i < 8 ==> Counted(FaceGroups.Order[i], gs[0], counts[i]) && AllCounted(gs[1..], counts, i + 1))
  }

  /** The records from index i on, in stream order. */
  function DecodeGroups(rest: seq<byte>, counts: seq<u32>, i: nat): (r: Result<seq<FaceGroups.FaceGroup>>)
    requires |counts| == 8 && i <= 8
    ensures r.Ok? ==> AllCounted(r.value, counts, i)
    decreases 8 - i
  {
    if i == 8 then Ok([])
    else
      var (g, rest1) :- DecodeGroup(FaceGroups.Order[i], rest, counts[i], i == 7);
      var more :- DecodeGroups(rest1, counts, i + 1);
      assert ([g] + more)[1..] == more;
      Ok([g] + more)
  }

  lemma {:induction false} AllCountedAt(gs: seq<FaceGroups.FaceGroup>, counts: seq<u32>, i: nat)
    requires |counts| == 8 && i <= 8 && AllCounted(gs, counts, i)
    ensures |gs| == 8 - i
    ensures forall j :: 0 <= j < 8 - i ==> Counted(FaceGroups.Order[i + j], gs[j], counts[i + j])
    decreases 8 - i
  {
    if i < 8 {
      AllCountedAt(gs[1..], counts, i + 1);
      forall j | 0 < j < 8 - i
        ensures Counted(FaceGroups.Order[i + j], gs[j], counts[i + j])
      {
        assert gs[j] == gs[1..][j - 1];
      }
    }
  }

  /** A u32 array section: count*a words read with binary.Read (the
      element count wrapped to 32 bits as uint32 arithmetic computes it),
      then handed to the array's setter as a flat slice. */
  function ReadU32Array(rest: seq<byte>, count: u32, a: nat): (r: Result<(seq<seq<u32>>, seq<byte>)>)
    requires 0 < a
    ensures var n := U32Mul(count, a);
            r.Ok? <==> 4 * n <= |rest| && n % a == 0
    ensures var n := U32Mul(count, a);
            r.Ok? ==> r.value == (Gather(U32sOf(rest[..4 * n]), a, a), rest[4 * n..])
  {
    var (ws, rest') :- ReadU32s(rest, U32Mul(count, a));
    var ts :- Assign([], Flat(ws), a, a);
    Ok((ts, rest'))
  }

  /** The int8 normal section: count*3 bytes, handed to SetNormals as a
      flat slice. */
  function ReadI8Array(rest: seq<byte>, count: u32): (r: Result<(seq<seq<i8>>, seq<byte>)>)
    ensures var n := U32Mul(count, NORMAL_ARITY);
            r.Ok? <==> n <= |rest| && n % NORMAL_ARITY == 0
    ensures var n := U32Mul(count, NORMAL_ARITY);
            r.Ok? ==> r.value == (Gather(I8sOf(rest[..n]), NORMAL_ARITY, NORMAL_ARITY), rest[n..])
  {
    var (xs, rest') :- ReadI8s(rest, U32Mul(count, NORMAL_ARITY));
    var ts :- Assign([], Flat(xs), NORMAL_ARITY, NORMAL_ARITY);
    Ok((ts, rest'))
  }

  /** Everything after the header, read with the header's counts: the
      vertex array, the normal array and its filler when there are
      normals, the UV array, then the records. The UV count product is
      always even, so its setter cannot fail. */
  function DecodeBody(h: Headers.Header, rest: seq<byte>): (r: Result<Binobj>)
    requires Headers.Shaped(h)
    ensures r.Ok? ==> Shaped(r.value) && r.value.header == h
  {
    var (vs, rest1) :- ReadU32Array(rest, h.verticeCount, VERTEX_ARITY);
    var (ns, rest2) :- ReadI8Array(rest1, h.normalCount);
    var rest3 := if h.normalCount > 0 then SkipPadding(rest2, U32Mul(h.normalCount, NORMAL_ARITY)) else rest2;
    var (us, rest4) :- ReadU32Array(rest3, h.uvCount, UV_ARITY);
    var groups :- DecodeGroups(rest4, h.faceCounts, 0);
    AllCountedAt(groups, h.faceCounts, 0);
    Ok(Binobj(h, vs, ns, us, groups))
  }

  /** Decode: the 64-byte header, a check of the first five signature
      bytes, then the body. Bytes after the last record are ignored. */
  function Decode(data: seq<byte>): (r: Result<Binobj>)
    ensures |data| < Headers.HEADER_SIZE ==> r == Err(IOFailure)
    ensures |data| >= Headers.HEADER_SIZE && data[..5] != Headers.SIGNATURE_PREFIX ==> r == Err(BadSignature)
    ensures r.Ok? ==> |data| >= Headers.HEADER_SIZE && data[..5] == Headers.SIGNATURE_PREFIX
    ensures r.Ok? ==> Shaped(r.value) && r.value.header == Headers.Read(data[..Headers.HEADER_SIZE])
  {
    var (hb, rest) :- ReadBytes(data, Headers.HEADER_SIZE);
    var h := Headers.Read(hb);
    assert h.signature[..5] == data[..5];
    if h.signature[..5] != Headers.SIGNATURE_PREFIX then Err(BadSignature)
    else DecodeBody(h, rest)
  }

  // ---- what a write followed by a read gives back ----

  /** The header describes the object's arrays exactly, with no 32-bit wrap
      in any count product, and every record has the lengths its decoder
      reproduces. */
  ghost predicate Agrees(obj: Binobj, h: Headers.Header)
    requires Shaped(obj) && Headers.Shaped(h)
  {
    && h.verticeCount == |obj.vectilers| && |obj.vectilers| * VERTEX_ARITY < TWO_32
    && h.normalCount == |obj.normals| && |obj.normals| * NORMAL_ARITY < TWO_32
    && h.uvCount == |obj.uvs| && |obj.uvs| * UV_ARITY < TWO_32
    && forall i :: 0 <= i < 8 ==> GroupAgrees(i, obj.groups[i], h.faceCounts[i])
  }

  ghost predicate GroupAgrees(i: nat, g: FaceGroups.FaceGroup, count: u32)
    requires i < 8
  {
    count == |g.material| && FaceGroups.Consistent(FaceGroups.Order[i], g)
  }

  /** The filler Encode writes is skipped whole by Decode: no filler after
      the normals, and none after any record but the last. */
  ghost predicate Aligned(h: Headers.Header)
    requires Headers.Shaped(h)
  {
    h.normalCount % 4 == 0 && forall i :: 0 <= i < 7 ==> h.faceCounts[i] % 2 == 0
  }

  /** Every quad record survives the stride-3 flatten/unflatten. */
  ghost predicate StrideSafe(obj: Binobj)
    requires Shaped(obj)
  {
    forall i :: 0 <= i < 8 ==> FaceGroups.StrideSafe(FaceGroups.Order[i], obj.groups[i])
  }

  /** A record with no faces and consistent lengths is the zero value. */
  lemma EmptyGroup(v: FaceGroups.Variant, g: FaceGroups.FaceGroup)
    requires FaceGroups.Consistent(v, g) && |g.material| == 0
    ensures g == FaceGroups.Empty
  {
  }

  /** Filler the decoder skips is filler the encoder did not write. */
  lemma EvenCountNoPadding(count: u32)
    requires count * 2 < TWO_32 && count % 2 == 0
    ensures HandlePadding(U32Mul(count, 2)) == 0
    ensures PaddingAfter(U32Mul(count, 2)) == []
  {
  }

  /** One nonzero record block reads back as the record; the filler after
      it is skipped whole, or left unread after the last record. */
  lemma GroupRoundTrip(i: nat, g: FaceGroups.FaceGroup, c: u32, more: seq<byte>)
    requires i < 8 && GroupAgrees(i, g, c) && c > 0
    requires FaceGroups.StrideSafe(FaceGroups.Order[i], g)
    requires i < 7 ==> c % 2 == 0
    ensures GroupBlock(FaceGroups.Order[i], g, c).Ok?
    ensures DecodeGroup(FaceGroups.Order[i], GroupBlock(FaceGroups.Order[i], g, c).value + more, c, i == 7)
            == Ok((g, if i < 7 then more else PaddingAfter(U32Mul(c, 2)) + more))
  {
    var v := FaceGroups.Order[i];
    var enc := FaceGroups.Encode(v, g).value;
    var pad := PaddingAfter(U32Mul(c, 2));
    assert GroupBlock(v, g, c).value + more == enc + (pad + more);
    FaceGroups.DecodeEncode(v, g, pad + more);
    FaceGroups.ReloadedIdentity(v, g);
    assert FaceGroups.Decode(v, enc + (pad + more), c) == Ok((g, pad + more));
    if i < 7 {
      EvenCountNoPadding(c);
      assert pad + more == more;
      assert SkipPadding(pad + more, U32Mul(c, 2)) == more;
    }
  }

  /** The records from i on read back, given that those from i + 1 on do. */
  lemma GroupsStep(groups: seq<FaceGroups.FaceGroup>, counts: seq<u32>, i: nat)
    requires GroupsShaped(groups) && |counts| == 8 && i < 8
    requires GroupAgrees(i, groups[i], counts[i])
    requires FaceGroups.StrideSafe(FaceGroups.Order[i], groups[i])
    requires i < 7 ==> counts[i] % 2 == 0
    requires EncodeGroups(groups, counts, i + 1).Ok?
    requires DecodeGroups(EncodeGroups(groups, counts, i + 1).value, counts, i + 1) == Ok(groups[i + 1..])
    ensures EncodeGroups(groups, counts, i).Ok?
    ensures DecodeGroups(EncodeGroups(groups, counts, i).value, counts, i) == Ok(groups[i..])
  {
    var v, g, c := FaceGroups.Order[i], groups[i], counts[i];
    var more := EncodeGroups(groups, counts, i + 1).value;
    assert groups[i..] == [g] + groups[i + 1..];
    if c == 0 {
      EmptyGroup(v, g);
      assert EncodeGroups(groups, counts, i).value == more;
      assert DecodeGroup(v, more, c, i == 7) == Ok((g, more));
    } else {
      var block := GroupBlock(v, g, c).value;
      assert EncodeGroups(groups, counts, i).value == block + more;
      GroupRoundTrip(i, g, c, more);
      var rest1 := if i < 7 then more else PaddingAfter(U32Mul(c, 2)) + more;
      assert DecodeGroups(rest1, counts, i + 1) == Ok(groups[i + 1..]);
    }
  }

  lemma {:induction false} GroupsRoundTrip(groups: seq<FaceGroups.FaceGroup>, counts: seq<u32>, i: nat)
    requires GroupsShaped(groups) && |counts| == 8 && i <= 8
    requires forall j :: i <= j < 8 ==> GroupAgrees(j, groups[j], counts[j])
    requires forall j :: i <= j < 8 ==> FaceGroups.StrideSafe(FaceGroups.Order[j], groups[j])
    requires forall j :: i <= j < 7 ==> counts[j] % 2 == 0
    ensures EncodeGroups(groups, counts, i).Ok?
    ensures DecodeGroups(EncodeGroups(groups, counts, i).value, counts, i) == Ok(groups[i..])
    decreases 8 - i
  {
    if i < 8 {
      GroupsRoundTrip(groups, counts, i + 1);
      GroupsStep(groups, counts, i);
    } else {
      assert groups[i..] == [];
    }
  }

  /** A u32 array written by its getter reads back through its setter. */
  lemma U32ArrayRoundTrip(ts: seq<seq<u32>>, a: nat, tail: seq<byte>)
    requires 0 < a && Rows(ts, a) && |ts| * a < TWO_32
    ensures ReadU32Array(U32sBytes(Concat(ts)) + tail, |ts|, a) == Ok((ts, tail))
  {
    ConcatLength(ts, a);
    MulDiv(a, |ts|);
    ReadU32sPrefix(Concat(ts), tail);
    GatherConcat(ts, a);
  }

  /** The int8 normal array written by its getter reads back through its setter. */
  lemma I8ArrayRoundTrip(ts: seq<seq<i8>>, tail: seq<byte>)
    requires Rows(ts, NORMAL_ARITY) && |ts| * NORMAL_ARITY < TWO_32
    ensures ReadI8Array(I8sBytes(Concat(ts)) + tail, |ts|) == Ok((ts, tail))
  {
    ConcatLength(ts, NORMAL_ARITY);
    MulDiv(NORMAL_ARITY, |ts|);
    ReadI8sPrefix(Concat(ts), tail);
    GatherConcat(ts, NORMAL_ARITY);
  }

  /** No filler follows normals whose count is a multiple of four. */
  lemma NormalsNoPadding(n: u32)
    requires n * 3 < TWO_32 && n % 4 == 0
    ensures HandlePadding(U32Mul(n, 3)) == 0
    ensures PaddingAfter(U32Mul(n, 3)) == []
  {
    assert U32Mul(n, 3) == 4 * ((n / 4) * 3);
  }

  lemma BodyRoundTrip(obj: Binobj, h: Headers.Header)
    requires Shaped(obj) && Headers.Shaped(h) && Agrees(obj, h) && Aligned(h) && StrideSafe(obj)
    ensures EncodeBody(obj, h).Ok?
    ensures DecodeBody(h, EncodeBody(obj, h).value) == Ok(obj.(header := h))
  {
    GroupsRoundTrip(obj.groups, h.faceCounts, 0);
    var gs := EncodeGroups(obj.groups, h.faceCounts, 0).value;
    var ub := U32sBytes(GetUVs(obj));
    var nb := I8sBytes(GetNormals(obj));
    var np := if h.normalCount > 0 then PaddingAfter(U32Mul(h.normalCount, 3)) else [];
    var body := U32sBytes(GetVectilers(obj)) + (nb + (np + (ub + gs)));
    assert EncodeBody(obj, h) == Ok(body);
    U32ArrayRoundTrip(obj.vectilers, VERTEX_ARITY, nb + (np + (ub + gs)));
    I8ArrayRoundTrip(obj.normals, np + (ub + gs));
    NormalsNoPadding(h.normalCount);
    assert np + (ub + gs) == ub + gs;
    U32ArrayRoundTrip(obj.uvs, UV_ARITY, gs);
    assert obj.groups[0..] == obj.groups;
  }

  /** Decode(Encode(obj)) gives the object back, with the header Encode
      wrote, when that header agrees with the arrays, the filler is
      aligned, and every quad record is stride-safe. */
  lemma RoundTrip(obj: Binobj)
    requires Shaped(obj)
    requires Agrees(obj, EffectiveHeader(obj)) && Aligned(EffectiveHeader(obj)) && StrideSafe(obj)
    ensures Encode(obj).Ok?
    ensures Decode(Encode(obj).value) == Ok(obj.(header := EffectiveHeader(obj)))
  {
    var h := EffectiveHeader(obj);
    BodyRoundTrip(obj, h);
    var w, body := Headers.Write(h), EncodeBody(obj, h).value;
    assert Encode(obj).value == w + body;
    assert (w + body)[..Headers.HEADER_SIZE] == w && (w + body)[Headers.HEADER_SIZE..] == body;
    Headers.ReadWrite(h);
  }

  /** A freshly set-up header agrees with arrays whose count products do
      not wrap and whose records have consistent lengths. */
  lemma SetupAgrees(obj: Binobj)
    requires Shaped(obj)
    requires |obj.vectilers| * VERTEX_ARITY < TWO_32 && |obj.normals| * NORMAL_ARITY < TWO_32
    requires |obj.uvs| * UV_ARITY < TWO_32
    requires forall i :: 0 <= i < 8 ==> FaceGroups.Consistent(FaceGroups.Order[i], obj.groups[i])
    ensures Agrees(obj, SetupHeader(obj))
  {
    var h := SetupHeader(obj);
    forall i | 0 <= i < 8
      ensures GroupAgrees(i, obj.groups[i], h.faceCounts[i])
    {
      var g := obj.groups[i];
      assert FaceGroups.Consistent(FaceGroups.Order[i], g);
      assert |g.material| * FaceGroups.Arity(FaceGroups.Order[i]) < TWO_32;
    }
  }

  /** For an object without the full signature, Encode sets the header up,
      and decoding the output gives back exactly the set-up object when the
      normal count is a multiple of four, every record but the last has an
      even number of faces, and the quad records are stride-safe. */
  lemma FreshRoundTrip(obj: Binobj)
    requires Shaped(obj) && obj.header.signature != Headers.SIGNATURE
    requires |obj.vectilers| * VERTEX_ARITY < TWO_32 && |obj.normals| * NORMAL_ARITY < TWO_32
    requires |obj.uvs| * UV_ARITY < TWO_32
    requires forall i :: 0 <= i < 8 ==> FaceGroups.Consistent(FaceGroups.Order[i], obj.groups[i])
    requires |obj.normals| % 4 == 0
    requires forall i :: 0 <= i < 7 ==> |obj.groups[i].material| % 2 == 0
    requires StrideSafe(obj)
    ensures Encode(obj).Ok?
    ensures Decode(Encode(obj).value) == Ok(Setup(obj))
  {
    var h := SetupHeader(obj);
    SetupAgrees(obj);
    assert Aligned(h) by {
      forall i | 0 <= i < 7
        ensures h.faceCounts[i] % 2 == 0
      {
        assert GroupAgrees(i, obj.groups[i], h.faceCounts[i]);
      }
    }
    RoundTrip(obj);
  }

  /** Decode accepts any signature starting with "Three", but Encode
      rewrites every signature that is not the full one, so such an input
      never comes back from Encode(Decode(...)) unchanged. */
  lemma PrefixOnlySignatureRewritten(data: seq<byte>)
    requires Headers.HEADER_SIZE <= |data|
    ensures Decode(data).Ok? ==> Decode(data).value.header.signature[..5] == Headers.SIGNATURE_PREFIX
    ensures Decode(data).Ok? && data[..12] != Headers.SIGNATURE && Encode(Decode(data).value).Ok? ==>
              Encode(Decode(data).value).value[..12] != data[..12]
  {
    if Decode(data).Ok? {
      var h := Decode(data).value.header;
      assert h.signature == data[..Headers.HEADER_SIZE][..12] == data[..12];
      assert h.signature[..5] == data[..5];
    }
  }

  /** Decode skips p bytes of filler where Encode wrote 2p: after a section
      of n bytes, the next read starts at p filler bytes the encoder left
      behind, p being non-zero exactly when n is not a multiple of four. */
  lemma FillerLeftUnread(n: u32, rest: seq<byte>)
    ensures var p := HandlePadding(n);
            var r := SkipPadding(PaddingAfter(n) + rest, n);
            && (p > 0 <==> n % 4 != 0)
            && |r| == p + |rest|
            && (forall k :: 0 <= k < p ==> r[k] == FILLER)
            && r[p..] == rest
  {
    var p := HandlePadding(n);
    var r := SkipPadding(PaddingAfter(n) + rest, n);
    if p > 0 {
      var w := WritePadding(p);
      assert PaddingAfter(n) == w;
      assert r == w[p..] + rest;
      assert forall k :: 0 <= k < p ==> r[k] == w[p + k];
    }
  }
}

=== FILE: facegroups.dfy ===
/** The eight face-group records (triangle/quad x flat/smooth x with or
    without UV indices) as one record parameterised by its variant.

    Each record holds vertex-index tuples and one material index per face;
    smooth variants add normal-index tuples and UV variants add UV-index
    tuples. All index tuples of a record share its arity (3 for triangles,
    4 for quads), and every flatten/unflatten helper of every variant
    indexes with stride 3. */
module FaceGroups {
  import opened Numeric
  import opened Outcome
  import opened Tuples
  import opened Stream

  datatype Variant =
    | FlatTriangle | SmoothTriangle | FlatUVTriangle | SmoothUVTriangle
    | FlatQuad | SmoothQuad | FlatUVQuad | SmoothUVQuad

  /** The order of the header counts and of the blocks in the stream. */
  const Order: seq<Variant> := [FlatTriangle, SmoothTriangle, FlatUVTriangle, SmoothUVTriangle,
                                FlatQuad, SmoothQuad, FlatUVQuad, SmoothUVQuad]

  /** Stride of every face-group flatten/unflatten loop, quads included. */
  const INDEX_STRIDE: nat := 3

  function Arity(v: Variant): (a: nat)
    ensures INDEX_STRIDE <= a
  {
    match v
    case FlatQuad | SmoothQuad | FlatUVQuad | SmoothUVQuad => 4
    case _ => 3
  }

  predicate HasNormals(v: Variant) {
    match v
    case SmoothTriangle | SmoothUVTriangle | SmoothQuad | SmoothUVQuad => true
    case _ => false
  }

  predicate HasUVs(v: Variant) {
    match v
    case FlatUVTriangle | SmoothUVTriangle | FlatUVQuad | SmoothUVQuad => true
    case _ => false
  }

  datatype FaceGroup = FaceGroup(
    vertices: seq<seq<u32>>,
    material: seq<i16>,
    normals: seq<seq<u32>>,
    uvs: seq<seq<u32>>)

  /** The zero value of every variant's Go struct. */
  const Empty: FaceGroup := FaceGroup([], [], [], [])

  /** What the variant's Go struct type guarantees: tuples of the variant's
      arity, and no normal or UV field where the variant has none. */
  ghost predicate Shaped(v: Variant, g: FaceGroup) {
    && Rows(g.vertices, Arity(v))
    && Rows(g.normals, Arity(v))
    && Rows(g.uvs, Arity(v))
    && (!HasNormals(v) ==> g.normals == [])
    && (!HasUVs(v) ==> g.uvs == [])
  }

  // ---- Get* ----

  /** What a Get* helper returns for tuples of arity a flattened at stride
      3: for triangles the tuples one after the other; for quads the
      first three indices of every quad, then the last quad's fourth
      index, then zeros up to four words per quad. */
  ghost predicate Flattened(ts: seq<seq<u32>>, a: nat, r: seq<u32>)
    requires Rows(ts, a)
  {
    && |r| == a * |ts|
    && (a == 3 ==> r == Concat(ts))
    && (a == 4 && ts == [] ==> r == [])
    && (a == 4 && ts != [] ==> r == Concat(Heads(ts)) + [ts[|ts| - 1][3]] + Zeros(|ts| - 1, 0))
  }

  /** The stride-3 flattening of one index field. */
  function Flatten(ts: seq<seq<u32>>, a: nat): (r: seq<u32>)
    requires Rows(ts, a) && (a == 3 || a == 4)
    ensures Flattened(ts, a, r)
  {
    if a == 3 then
      ScatterDense(ts, 3, 0);
      Scatter(ts, a, INDEX_STRIDE, 0)
    else
      if ts == [] then Scatter(ts, a, INDEX_STRIDE, 0)
      else
        QuadScatterForm(ts, 0);
        Scatter(ts, a, INDEX_STRIDE, 0)
  }

  function GetVertices(v: Variant, g: FaceGroup): (r: seq<u32>)
    requires Shaped(v, g)
    ensures Flattened(g.vertices, Arity(v), r)
  {
    Flatten(g.vertices, Arity(v))
  }

  function GetNormals(v: Variant, g: FaceGroup): (r: seq<u32>)
    requires HasNormals(v) && Shaped(v, g)
    ensures Flattened(g.normals, Arity(v), r)
  {
    Flatten(g.normals, Arity(v))
  }

  function GetUvs(v: Variant, g: FaceGroup): (r: seq<u32>)
    requires HasUVs(v) && Shaped(v, g)
    ensures Flattened(g.uvs, Arity(v), r)
  {
    Flatten(g.uvs, Arity(v))
  }

  // ---- Set* ----

  datatype MaterialInput = Int16s(values: seq<i16>) | OtherMaterial

  function SetVertices(v: Variant, g: FaceGroup, input: Shape<u32>): (r: Result<FaceGroup>)
    requires Shaped(v, g) && Admissible(input, Arity(v))
    ensures r.Err? <==> input.Flat? && |input.items| % Arity(v) != 0
    ensures r.Err? ==> r.error == InvalidLength
    ensures r.Ok? ==> Shaped(v, r.value) && r.value == g.(vertices := r.value.vertices)
    ensures input.Unrecognized? ==> r == Ok(g)
  {
    var vs :- Assign(g.vertices, input, Arity(v), INDEX_STRIDE);
    Ok(g.(vertices := vs))
  }

  function SetNormals(v: Variant, g: FaceGroup, input: Shape<u32>): (r: Result<FaceGroup>)
    requires HasNormals(v) && Shaped(v, g) && Admissible(input, Arity(v))
    ensures r.Err? <==> input.Flat? && |input.items| % Arity(v) != 0
    ensures r.Err? ==> r.error == InvalidLength
    ensures r.Ok? ==> Shaped(v, r.value) && r.value == g.(normals := r.value.normals)
    ensures input.Unrecognized? ==> r == Ok(g)
  {
    var ns :- Assign(g.normals, input, Arity(v), INDEX_STRIDE);
    Ok(g.(normals := ns))
  }

  function SetUVs(v: Variant, g: FaceGroup, input: Shape<u32>): (r: Result<FaceGroup>)
    requires HasUVs(v) && Shaped(v, g) && Admissible(input, Arity(v))
    ensures r.Err? <==> input.Flat? && |input.items| % Arity(v) != 0
    ensures r.Err? ==> r.error == InvalidLength
    ensures r.Ok? ==> Shaped(v, r.value) && r.value == g.(uvs := r.value.uvs)
    ensures input.Unrecognized? ==> r == Ok(g)
  {
    var us :- Assign(g.uvs, input, Arity(v), INDEX_STRIDE);
    Ok(g.(uvs := us))
  }

  /** Materials accept only an int16 slice, taken as is. */
  function SetMaterial(g: FaceGroup, input: MaterialInput): (r: Result<FaceGroup>)
    ensures r.Err? <==> input.OtherMaterial?
    ensures r.Err? ==> r.error == TypeMismatch
    ensures r.Ok? ==> r.value.material == input.values
    ensures r.Ok? ==> r.value == g.(material := r.value.material)
  {
    match input
    case Int16s(ms) => Ok(g.(material := ms))
    case OtherMaterial => Err(TypeMismatch)
  }

  // ---- encode / decode ----

  /** Bytes a block of n faces occupies when n*arity does not wrap: the
      vertex words, the materials, and the normal and UV words where the
      variant has them. */
  function BlockSize(v: Variant, n: nat): nat {
    HeadSize(v, n) + OptionalSize(v, n)
  }

  /** encode: vertex words, material int16s, then normal words and UV
      words where present; a vertex/material length mismatch fails before
      anything is written. Normal and UV lengths are not checked. */
  function Encode(v: Variant, g: FaceGroup): (r: Result<seq<byte>>)
    requires Shaped(v, g)
    ensures r.Err? <==> |g.vertices| != |g.material|
    ensures r.Err? ==> r.error == LengthMismatch
  {
    if |g.vertices| != |g.material| then Err(LengthMismatch)
    else
      Ok(U32sBytes(GetVertices(v, g))
         + I16sBytes(g.material)
         + (if HasNormals(v) then U32sBytes(GetNormals(v, g)) else [])
         + (if HasUVs(v) then U32sBytes(GetUvs(v, g)) else []))
  }

  /** Reads size*arity index words (the product wrapped to 32 bits as Go
      computes it) and hands them to the record's Set* helper as a flat
      slice, which rebuilds tuples at stride 3. */
  function ReadTuples(rest: seq<byte>, size: u32, a: nat): (r: Result<(seq<seq<u32>>, seq<byte>)>)
    requires a == 3 || a == 4
    ensures r.Ok? <==> 4 * U32Mul(size, a) <= |rest| && U32Mul(size, a) % a == 0
    ensures r.Ok? ==> Rows(r.value.0, a) && r.value.1 == rest[4 * U32Mul(size, a)..]
    ensures r.Ok? && size * a < TWO_32 ==> |r.value.0| == size
  {
    var (words, rest') :- ReadU32s(rest, U32Mul(size, a));
    var ts :- Assign([], Flat(words), a, INDEX_STRIDE);
    Ok((ts, rest'))
  }

  /** An optional tuple section: read when the variant has it, otherwise
      nothing is consumed and the field stays empty. */
  function ReadSection(present: bool, rest: seq<byte>, size: u32, a: nat): (r: Result<(seq<seq<u32>>, seq<byte>)>)
    requires a == 3 || a == 4
    ensures !present ==> r == Ok(([], rest))
    ensures present ==> r == ReadTuples(rest, size, a)
  {
    if present then ReadTuples(rest, size, a) else Ok(([], rest))
  }

  /** decode(size): vertex tuples, then size material int16s, then normal
      and UV tuples where the variant has them, all read with the same
      arity. Returns the record and the unread remainder. */
  function Decode(v: Variant, rest: seq<byte>, size: u32): (r: Result<(FaceGroup, seq<byte>)>)
    ensures r.Ok? ==> Shaped(v, r.value.0) && |r.value.0.material| == size
    ensures Arity(v) == 3 && U32Mul(size, 3) % 3 != 0 ==> r.Err?
  {
    var (vs, rest1) :- ReadTuples(rest, size, Arity(v));
    var (ms, rest2) :- ReadI16s(rest1, size);
    DecodeOptional(v, rest2, size, vs, ms)
  }

  /** The part of decode after the materials: the normal and UV sections. */
  function DecodeOptional(v: Variant, rest: seq<byte>, size: u32, vs: seq<seq<u32>>, ms: seq<i16>)
    : (r: Result<(FaceGroup, seq<byte>)>)
    requires Rows(vs, Arity(v))
    ensures r.Ok? ==> Shaped(v, r.value.0) && r.value.0.vertices == vs && r.value.0.material == ms
  {
    var a := Arity(v);
    var (ns, rest1) :- ReadSection(HasNormals(v), rest, size, a);
    var (us, rest2) :- ReadSection(HasUVs(v), rest1, size, a);
    Ok((FaceGroup(vs, ms, ns, us), rest2))
  }

  /** An optional section without 32-bit wrap: it needs and consumes
      4*size*a bytes when present and nothing otherwise. */
  lemma SectionNoWrap(present: bool, rest: seq<byte>, size: u32, a: nat)
    requires (a == 3 || a == 4) && size * a < TWO_32
    ensures var k := if present then 4 * (size * a) else 0;
            && (ReadSection(present, rest, size, a).Ok? <==> k <= |rest|)
            && (ReadSection(present, rest, size, a).Ok? ==> ReadSection(present, rest, size, a).value.1 == rest[k..])
  {
    MulDiv(a, size);
  }

  /** Bytes of the optional sections of a block of n faces. */
  function OptionalSize(v: Variant, n: nat): nat {
    var w := n * Arity(v);
    (if HasNormals(v) then 4 * w else 0) + (if HasUVs(v) then 4 * w else 0)
  }

  lemma OptionalConsumes(v: Variant, rest: seq<byte>, size: u32, vs: seq<seq<u32>>, ms: seq<i16>)
    requires size * Arity(v) < TWO_32 && Rows(vs, Arity(v))
    ensures DecodeOptional(v, rest, size, vs, ms).Ok? <==> OptionalSize(v, size) <= |rest|
    ensures DecodeOptional(v, rest, size, vs, ms).Ok? ==>
              DecodeOptional(v, rest, size, vs, ms).value.1 == rest[OptionalSize(v, size)..]
  {
    var a := Arity(v);
    var k3 := if HasNormals(v) then 4 * (size * a) else 0;
    SectionNoWrap(HasNormals(v), rest, size, a);
    var r3 := ReadSection(HasNormals(v), rest, size, a);
    if r3.Ok? {
      SectionNoWrap(HasUVs(v), r3.value.1, size, a);
      assert r3.value.1 == rest[k3..];
    }
  }

  /** Without 32-bit wrap, decode(size) succeeds exactly when the input
      holds a whole block, and consumes exactly one block. */
  lemma DecodeConsumes(v: Variant, rest: seq<byte>, size: u32)
    requires size * Arity(v) < TWO_32
    ensures Decode(v, rest, size).Ok? <==> BlockSize(v, size) <= |rest|
    ensures Decode(v, rest, size).Ok? ==> Decode(v, rest, size).value.1 == rest[BlockSize(v, size)..]
  {
    DecodeSucceeds(v, rest, size);
    DecodeRemainder(v, rest, size);
  }

  lemma DecodeSucceeds(v: Variant, rest: seq<byte>, size: u32)
    requires size * Arity(v) < TWO_32
    ensures Decode(v, rest, size).Ok? <==> BlockSize(v, size) <= |rest|
  {
    HeadConsumes(v, rest, size);
    if HeadSize(v, size) <= |rest| {
      var (vs, rest1) := ReadTuples(rest, size, Arity(v)).value;
      var (ms, rest2) := ReadI16s(rest1, size).value;
      OptionalConsumes(v, rest2, size, vs, ms);
    }
  }

  lemma SuffixOfSuffix<T>(s: seq<T>, i: nat, j: nat)
    requires i + j <= |s|
    ensures s[i..][j..] == s[i + j..]
  {
  }

  lemma DecodeRemainder(v: Variant, rest: seq<byte>, size: u32)
    requires size * Arity(v) < TWO_32
    ensures Decode(v, rest, size).Ok? ==> BlockSize(v, size) <= |rest|
    ensures Decode(v, rest, size).Ok? ==> Decode(v, rest, size).value.1 == rest[BlockSize(v, size)..]
  {
    DecodeSucceeds(v, rest, size);
    HeadConsumes(v, rest, size);
    if Decode(v, rest, size).Ok? {
      var (vs, rest1) := ReadTuples(rest, size, Arity(v)).value;
      var (ms, rest2) := ReadI16s(rest1, size).value;
      OptionalConsumes(v, rest2, size, vs, ms);
      var h, o := HeadSize(v, size), OptionalSize(v, size);
      assert BlockSize(v, size) == h + o;
      SuffixOfSuffix(rest, h, o);
    }
  }

  /** Bytes of the vertex and material sections of a block of n faces. */
  function HeadSize(v: Variant, n: nat): nat {
    4 * (n * Arity(v)) + 2 * n
  }

  /** The vertex and material sections need and consume HeadSize bytes;
      what follows is decoded by the optional part. */
  lemma HeadConsumes(v: Variant, rest: seq<byte>, size: u32)
    requires size * Arity(v) < TWO_32
    ensures |rest| < HeadSize(v, size) ==> Decode(v, rest, size).Err?
    ensures HeadSize(v, size) <= |rest| ==>
              && ReadTuples(rest, size, Arity(v)).Ok?
              && ReadI16s(ReadTuples(rest, size, Arity(v)).value.1, size).Ok?
    ensures HeadSize(v, size) <= |rest| ==>
              var (vs, rest1) := ReadTuples(rest, size, Arity(v)).value;
              var (ms, rest2) := ReadI16s(rest1, size).value;
              && rest2 == rest[HeadSize(v, size)..]
              && Decode(v, rest, size) == DecodeOptional(v, rest2, size, vs, ms)
  {
    SectionNoWrap(true, rest, size, Arity(v));
  }

  // ---- what a write followed by a read leaves ----

  /** Set(Flat(Get(field))) on every index field of the record. */
  function Reloaded(v: Variant, g: FaceGroup): (r: FaceGroup)
    requires Shaped(v, g)
  {
    var a := Arity(v);
    MulDiv(a, |g.vertices|);
    MulDiv(a, |g.normals|);
    MulDiv(a, |g.uvs|);
    FaceGroup(Gather(GetVertices(v, g), a, INDEX_STRIDE),
              g.material,
              Gather(Scatter(g.normals, a, INDEX_STRIDE, 0), a, INDEX_STRIDE),
              Gather(Scatter(g.uvs, a, INDEX_STRIDE, 0), a, INDEX_STRIDE))
  }

  /** Every quad field is chained (see Tuples.Chained); triangles need nothing. */
  ghost predicate StrideSafe(v: Variant, g: FaceGroup)
    requires Shaped(v, g)
  {
    Arity(v) == 4 ==> Chained(g.vertices) && Chained(g.normals) && Chained(g.uvs)
  }

  lemma FieldReloaded(ts: seq<seq<u32>>, a: nat)
    requires a == 3 || a == 4
    requires Rows(ts, a)
    ensures |Scatter(ts, a, INDEX_STRIDE, 0)| % a == 0
    ensures Gather(Scatter(ts, a, INDEX_STRIDE, 0), a, INDEX_STRIDE) == ts
            <==> (a == 4 ==> Chained(ts))
  {
    if a == 3 {
      ScatterDense(ts, 3, 0);
      GatherConcat(ts, 3);
    } else {
      QuadRoundTripIff(ts, 0);
    }
  }

  /** A record survives a write and a read exactly when its quad fields are
      chained: triangles always do, quads lose every 4th index that differs
      from the next quad's 1st. */
  lemma ReloadedIdentity(v: Variant, g: FaceGroup)
    requires Shaped(v, g)
    ensures Reloaded(v, g) == g <==> StrideSafe(v, g)
  {
    FieldReloaded(g.vertices, Arity(v));
    FieldReloaded(g.normals, Arity(v));
    FieldReloaded(g.uvs, Arity(v));
  }

  /** Setting the flat slice GetVertices returned: triangles get their
      tuples back, quads exactly when their vertex tuples are chained. */
  lemma SetGetVertices(v: Variant, g: FaceGroup)
    requires Shaped(v, g)
    ensures SetVertices(v, g, Flat(GetVertices(v, g))).Ok?
    ensures SetVertices(v, g, Flat(GetVertices(v, g))) == Ok(g) <==> (Arity(v) == 4 ==> Chained(g.vertices))
  {
    FieldReloaded(g.vertices, Arity(v));
  }

  lemma SetGetNormals(v: Variant, g: FaceGroup)
    requires HasNormals(v) && Shaped(v, g)
    ensures SetNormals(v, g, Flat(GetNormals(v, g))).Ok?
    ensures SetNormals(v, g, Flat(GetNormals(v, g))) == Ok(g) <==> (Arity(v) == 4 ==> Chained(g.normals))
  {
    FieldReloaded(g.normals, Arity(v));
  }

  lemma SetGetUvs(v: Variant, g: FaceGroup)
    requires HasUVs(v) && Shaped(v, g)
    ensures SetUVs(v, g, Flat(GetUvs(v, g))).Ok?
    ensures SetUVs(v, g, Flat(GetUvs(v, g))) == Ok(g) <==> (Arity(v) == 4 ==> Chained(g.uvs))
  {
    FieldReloaded(g.uvs, Arity(v));
  }

  /** Lengths the decoder can reproduce: one material per face and, where
      present, one normal and one UV tuple per face, without 32-bit wrap. */
  ghost predicate Consistent(v: Variant, g: FaceGroup) {
    && Shaped(v, g)
    && |g.vertices| == |g.material|
    && (HasNormals(v) ==> |g.normals| == |g.vertices|)
    && (HasUVs(v) ==> |g.uvs| == |g.vertices|)
    && |g.vertices| * Arity(v) < TWO_32
  }

  lemma ReadTuplesPrefix(ts: seq<seq<u32>>, a: nat, tail: seq<byte>)
    requires (a == 3 || a == 4) && Rows(ts, a) && |ts| * a < TWO_32
    ensures |Scatter(ts, a, INDEX_STRIDE, 0)| % a == 0
    ensures ReadTuples(U32sBytes(Scatter(ts, a, INDEX_STRIDE, 0)) + tail, |ts|, a)
            == Ok((Gather(Scatter(ts, a, INDEX_STRIDE, 0), a, INDEX_STRIDE), tail))
  {
    var f := Scatter(ts, a, INDEX_STRIDE, 0);
    MulDiv(a, |ts|);
    assert U32Mul(|ts|, a) == |f|;
    ReadU32sPrefix(f, tail);
  }

  /** One optional section written and read back: when absent its field
      is empty and nothing is consumed. */
  lemma SectionEncode(present: bool, ts: seq<seq<u32>>, a: nat, n: u32, tail: seq<byte>)
    requires (a == 3 || a == 4) && Rows(ts, a) && |ts| * a < TWO_32
    requires present ==> |ts| == n
    requires !present ==> ts == []
    ensures |Scatter(ts, a, INDEX_STRIDE, 0)| % a == 0
    ensures ReadSection(present, (if present then U32sBytes(Scatter(ts, a, INDEX_STRIDE, 0)) else []) + tail, n, a)
            == Ok((Gather(Scatter(ts, a, INDEX_STRIDE, 0), a, INDEX_STRIDE), tail))
  {
    ReadTuplesPrefix(ts, a, tail);
    if !present {
      assert [] + tail == tail;
    }
  }

  /** The optional sections written by encode read back as the reloaded
      normal and UV fields. */
  lemma OptionalEncode(v: Variant, g: FaceGroup, tail: seq<byte>)
    requires Consistent(v, g)
    ensures var nb := if HasNormals(v) then U32sBytes(GetNormals(v, g)) else [];
            var ub := if HasUVs(v) then U32sBytes(GetUvs(v, g)) else [];
            var R := Reloaded(v, g);
            DecodeOptional(v, nb + (ub + tail), |g.vertices|, R.vertices, g.material) == Ok((R, tail))
  {
    var a, n := Arity(v), |g.vertices|;
    var ub := if HasUVs(v) then U32sBytes(GetUvs(v, g)) else [];
    SectionEncode(HasNormals(v), g.normals, a, n, ub + tail);
    SectionEncode(HasUVs(v), g.uvs, a, n, tail);
  }

  lemma Assoc5<T>(a: seq<T>, b: seq<T>, c: seq<T>, d: seq<T>, t: seq<T>)
    ensures a + b + c + d + t == a + (b + (c + (d + t)))
  {
  }

  /** The encoded block, followed by anything, as its four sections. */
  lemma EncodeSections(v: Variant, g: FaceGroup, tail: seq<byte>)
    requires Shaped(v, g) && |g.vertices| == |g.material|
    ensures Encode(v, g).Ok?
    ensures Encode(v, g).value + tail
            == U32sBytes(GetVertices(v, g)) + (I16sBytes(g.material)
               + ((if HasNormals(v) then U32sBytes(GetNormals(v, g)) else [])
               + ((if HasUVs(v) then U32sBytes(GetUvs(v, g)) else []) + tail)))
  {
    var vb := U32sBytes(GetVertices(v, g));
    var mb := I16sBytes(g.material);
    var nb := if HasNormals(v) then U32sBytes(GetNormals(v, g)) else [];
    var ub := if HasUVs(v) then U32sBytes(GetUvs(v, g)) else [];
    assert Encode(v, g).value == vb + mb + nb + ub;
    Assoc5(vb, mb, nb, ub, tail);
  }

  /** Decoding the vertex and material sections written by encode hands
      the rest to the optional part with the reloaded vertices. */
  lemma HeadEncode(v: Variant, g: FaceGroup, rest: seq<byte>)
    requires Consistent(v, g)
    ensures Decode(v, U32sBytes(GetVertices(v, g)) + (I16sBytes(g.material) + rest), |g.vertices|)
            == DecodeOptional(v, rest, |g.vertices|, Reloaded(v, g).vertices, g.material)
  {
    ReadTuplesPrefix(g.vertices, Arity(v), I16sBytes(g.material) + rest);
    ReadI16sPrefix(g.material, rest);
  }

  /** Reading back an encoded block yields the reloaded record and leaves
      exactly what followed the block. */
  lemma DecodeEncode(v: Variant, g: FaceGroup, tail: seq<byte>)
    requires Consistent(v, g)
    ensures Encode(v, g).Ok?
    ensures Decode(v, Encode(v, g).value + tail, |g.vertices|) == Ok((Reloaded(v, g), tail))
  {
    var nb := if HasNormals(v) then U32sBytes(GetNormals(v, g)) else [];
    var ub := if HasUVs(v) then U32sBytes(GetUvs(v, g)) else [];
    EncodeSections(v, g, tail);
    HeadEncode(v, g, nb + (ub + tail));
    OptionalEncode(v, g, tail);
  }
}

=== FILE: headers.dfy ===
/** The fixed 64-byte header: a 12-byte signature, eight nominal width
    bytes and eleven little-endian u32 counts, packed without gaps. */
module Headers {
  import opened Numeric

  /** "Three.js 002" in ASCII. */
  const SIGNATURE: seq<byte> := [0x54, 0x68, 0x72, 0x65, 0x65, 0x2E, 0x6A, 0x73, 0x20, 0x30, 0x30, 0x32]

  /** "Three", the part of the signature Decode compares. */
  const SIGNATURE_PREFIX: seq<byte> := SIGNATURE[..5]

  const HEADER_SIZE: nat := 64

  /** The eight face-group counts appear in the order of Variants.Order. */
  datatype Header = Header(
    signature: seq<byte>,
    headerBytes: byte,
    vertexCoordinateBytes: byte,
    normalCoordinateBytes: byte,
    uvCoordinateBytes: byte,
    vertexIndexBytes: byte,
    normalIndexBytes: byte,
    uvIndexBytes: byte,
    materialIndexBytes: byte,
    verticeCount: u32,
    normalCount: u32,
    uvCount: u32,
    faceCounts: seq<u32>)

  /** The shape the Go struct's fixed-size arrays guarantee. */
  ghost predicate Shaped(h: Header) {
    |h.signature| == 12 && |h.faceCounts| == 8
  }

  /** SetDefault: the fixed signature and width constants, all counts zero. */
  function SetDefault(): (h: Header)
    ensures Shaped(h)
    ensures h.signature == SIGNATURE && h.headerBytes as nat == HEADER_SIZE
    ensures h.verticeCount == h.normalCount == h.uvCount == 0
    ensures forall i :: 0 <= i < 8 ==> h.faceCounts[i] == 0
  {
    Header(SIGNATURE, 64, 4, 1, 4, 4, 4, 4, 2, 0, 0, 0, [0, 0, 0, 0, 0, 0, 0, 0])
  }

  /** The width bytes SetDefault declares are the widths the codec uses:
      vertex and UV components and all face indices are written as 4-byte
      words, normal components as single bytes, materials as 2-byte ints. */
  lemma DefaultWidthsMatchEncodings(w: u32, n: i8, m: i16)
    ensures |U32Bytes(w)| == SetDefault().vertexCoordinateBytes as nat == SetDefault().uvCoordinateBytes as nat
    ensures |U32Bytes(w)| == SetDefault().vertexIndexBytes as nat == SetDefault().normalIndexBytes as nat
    ensures |U32Bytes(w)| == SetDefault().uvIndexBytes as nat
    ensures |[I8Byte(n)]| == SetDefault().normalCoordinateBytes as nat
    ensures |I16Bytes(m)| == SetDefault().materialIndexBytes as nat
  {
  }

  function Counts(h: Header): (r: seq<u32>)
    requires Shaped(h)
    ensures |r| == 11
  {
    [h.verticeCount, h.normalCount, h.uvCount] + h.faceCounts
  }

  /** binary.Write of the header struct. */
  function Write(h: Header): (r: seq<byte>)
    requires Shaped(h)
    ensures |r| == HEADER_SIZE
    ensures r[..12] == h.signature
    ensures r[12..20] == [h.headerBytes,
                          h.vertexCoordinateBytes, h.normalCoordinateBytes, h.uvCoordinateBytes,
                          h.vertexIndexBytes, h.normalIndexBytes, h.uvIndexBytes, h.materialIndexBytes]
    ensures r[20..] == U32sBytes(Counts(h))
  {
    h.signature
    + [h.headerBytes,
       h.vertexCoordinateBytes, h.normalCoordinateBytes, h.uvCoordinateBytes,
       h.vertexIndexBytes, h.normalIndexBytes, h.uvIndexBytes, h.materialIndexBytes]
    + U32sBytes(Counts(h))
  }

  /** binary.Read of the header struct from exactly 64 bytes. */
  function Read(b: seq<byte>): (h: Header)
    requires |b| == HEADER_SIZE
    ensures Shaped(h)
    ensures h.signature == b[..12]
    ensures [h.headerBytes,
             h.vertexCoordinateBytes, h.normalCoordinateBytes, h.uvCoordinateBytes,
             h.vertexIndexBytes, h.normalIndexBytes, h.uvIndexBytes, h.materialIndexBytes] == b[12..20]
    ensures Counts(h) == U32sOf(b[20..])
  {
    var counts := U32sOf(b[20..]);
    assert [counts[0], counts[1], counts[2]] + counts[3..] == counts;
    Header(b[..12], b[12], b[13], b[14], b[15], b[16], b[17], b[18], b[19],
           counts[0], counts[1], counts[2], counts[3..])
  }

  lemma ReadWrite(h: Header)
    requires Shaped(h)
    ensures Read(Write(h)) == h
  {
    var b := Write(h);
    U32sRoundTrip(Counts(h));
    assert Counts(h)[3..] == h.faceCounts;
  }

  lemma WriteRead(b: seq<byte>)
    requires |b| == HEADER_SIZE
    ensures Write(Read(b)) == b
  {
    var h := Read(b);
    U32sBytesOf(b[20..]);
    var counts := U32sOf(b[20..]);
    assert Counts(h) == counts;
    assert b == b[..12] + b[12..20] + b[20..];
  }
}

=== FILE: layout.dfy ===
/** Where each section of a container sits: the byte layout Encode
    produces, and the bytes Decode reads and skips for a given header. */
module Layout {
  import opened Numeric
  import opened Outcome
  import opened Tuples
  import opened Padding
  import opened Stream
  import Headers
  import FaceGroups
  import Bin

  // ---- what Encode writes ----

  /** Record j as Encode places it: nothing when its count is zero,
      otherwise its block followed by its filler. */
  function RecordBytes(groups: seq<FaceGroups.FaceGroup>, counts: seq<u32>, j: nat): (r: seq<byte>)
    requires Bin.GroupsShaped(groups) && |counts| == 8 && j < 8
    ensures counts[j] == 0 ==> r == []
  {
    if counts[j] == 0 then []
    else
      match Bin.GroupBlock(FaceGroups.Order[j], groups[j], counts[j])
      case Ok(b) => b
      case Err(_) => []
  }

  /** The records from index i on, one after the other in variant order. */
  function RecordsFrom(groups: seq<FaceGroups.FaceGroup>, counts: seq<u32>, i: nat): (r: seq<seq<byte>>)
    requires Bin.GroupsShaped(groups) && |counts| == 8 && i <= 8
    ensures |r| == 8 - i
    decreases 8 - i
  {
    if i == 8 then [] else [RecordBytes(groups, counts, i)] + RecordsFrom(groups, counts, i + 1)
  }

  /** One step of EncodeGroups: record i's bytes, then the rest. */
  lemma EncodeGroupsStep(groups: seq<FaceGroups.FaceGroup>, counts: seq<u32>, i: nat)
    requires Bin.GroupsShaped(groups) && |counts| == 8 && i < 8
    requires Bin.EncodeGroups(groups, counts, i).Ok?
    ensures Bin.EncodeGroups(groups, counts, i + 1).Ok?
    ensures Bin.EncodeGroups(groups, counts, i).value
            == RecordBytes(groups, counts, i) + Bin.EncodeGroups(groups, counts, i + 1).value
  {
  }

  lemma {:induction false} GroupsLayout(groups: seq<FaceGroups.FaceGroup>, counts: seq<u32>, i: nat)
    requires Bin.GroupsShaped(groups) && |counts| == 8 && i <= 8
    requires Bin.EncodeGroups(groups, counts, i).Ok?
    ensures Bin.EncodeGroups(groups, counts, i).value == Concat(RecordsFrom(groups, counts, i))
    decreases 8 - i
  {
    if i < 8 {
      EncodeGroupsStep(groups, counts, i);
      GroupsLayout(groups, counts, i + 1);
      var rs := RecordsFrom(groups, counts, i);
      assert rs[1..] == RecordsFrom(groups, counts, i + 1);
    }
  }

  /** The filler after the normals, as Encode writes it. */
  function NormalFiller(h: Headers.Header): (r: seq<byte>)
    ensures h.normalCount == 0 ==> r == []
    ensures h.normalCount > 0 ==> |r| == 2 * HandlePadding(U32Mul(h.normalCount, 3))
  {
    if h.normalCount > 0 then Bin.PaddingAfter(U32Mul(h.normalCount, 3)) else []
  }

  /** Slices of six sections written one after another, at the offsets
      their lengths give. */
  lemma Sections<T>(out: seq<T>, w: seq<T>, a: seq<T>, b: seq<T>, c: seq<T>, d: seq<T>, e: seq<T>,
                    o1: nat, o2: nat, o3: nat, o4: nat)
    requires out == w + (a + (b + (c + (d + e))))
    requires o1 == |w| + |a| && o2 == o1 + |b| && o3 == o2 + |c| && o4 == o3 + |d|
    ensures o4 <= |out|
    ensures out[..|w|] == w && out[|w|..o1] == a && out[o1..o2] == b
    ensures out[o2..o3] == c && out[o3..o4] == d && out[o4..] == e
  {
    assert out[..|w|] == w;
    assert out[|w|..] == a + (b + (c + (d + e)));
    assert out[o1..] == b + (c + (d + e));
    assert out[o2..] == c + (d + e);
    assert out[o3..] == d + e;
  }

  /** Encode's output is the header followed by the body's sections. */
  lemma EncodeSections(obj: Bin.Binobj)
    requires Bin.Shaped(obj) && Bin.Encode(obj).Ok?
    ensures var h := Bin.EffectiveHeader(obj);
            && Bin.EncodeGroups(obj.groups, h.faceCounts, 0).Ok?
            && Bin.Encode(obj).value
               == Headers.Write(h) + (U32sBytes(Concat(obj.vectilers)) + (I8sBytes(Concat(obj.normals))
                  + (NormalFiller(h) + (U32sBytes(Concat(obj.uvs))
                  + Bin.EncodeGroups(obj.groups, h.faceCounts, 0).value))))
  {
  }

  /** The sections of a container body laid out after its header, at
      four bytes per coordinate word and one per normal component. */
  lemma BodySections(out: seq<byte>, w: seq<byte>, vw: seq<u32>, nw: seq<i8>, f: seq<byte>, uw: seq<u32>, g: seq<byte>,
                     o0: nat, o1: nat, o2: nat, o3: nat, o4: nat)
    requires out == w + (U32sBytes(vw) + (I8sBytes(nw) + (f + (U32sBytes(uw) + g))))
    requires o0 == |w| && o1 == o0 + 4 * |vw| && o2 == o1 + |nw| && o3 == o2 + |f| && o4 == o3 + 4 * |uw|
    ensures o4 <= |out|
    ensures out[..o0] == w && out[o0..o1] == U32sBytes(vw) && out[o1..o2] == I8sBytes(nw)
    ensures out[o2..o3] == f && out[o3..o4] == U32sBytes(uw) && out[o4..] == g
  {
    Sections(out, w, U32sBytes(vw), I8sBytes(nw), f, U32sBytes(uw), g, o1, o2, o3, o4);
  }

  /** Where Encode's sections end: after the header, four bytes per
      vertex coordinate, one per normal component, the normal filler and
      four bytes per UV coordinate. */
  function VerticesEnd(obj: Bin.Binobj): nat
  {
    Headers.HEADER_SIZE + 4 * |Concat(obj.vectilers)|
  }

  function NormalsEnd(obj: Bin.Binobj): nat
  {
    VerticesEnd(obj) + |Concat(obj.normals)|
  }

  function FillerEnd(obj: Bin.Binobj): nat
    requires Bin.Shaped(obj)
  {
    NormalsEnd(obj) + |NormalFiller(Bin.EffectiveHeader(obj))|
  }

  function UvsEnd(obj: Bin.Binobj): nat
    requires Bin.Shaped(obj)
  {
    FillerEnd(obj) + 4 * |Concat(obj.uvs)|
  }

  /** Encode's output, section by section: the header, the vertex words,
      the normal bytes, the normal filler, the UV words, and then every
      counted record with its filler. */
  lemma EncodeLayout(obj: Bin.Binobj, out: seq<byte>)
    requires Bin.Shaped(obj) && Bin.Encode(obj) == Ok(out)
    ensures UvsEnd(obj) <= |out|
    ensures out[..Headers.HEADER_SIZE] == Headers.Write(Bin.EffectiveHeader(obj))
    ensures out[Headers.HEADER_SIZE..VerticesEnd(obj)] == U32sBytes(Concat(obj.vectilers))
    ensures out[VerticesEnd(obj)..NormalsEnd(obj)] == I8sBytes(Concat(obj.normals))
    ensures out[NormalsEnd(obj)..FillerEnd(obj)] == NormalFiller(Bin.EffectiveHeader(obj))
    ensures out[FillerEnd(obj)..UvsEnd(obj)] == U32sBytes(Concat(obj.uvs))
    ensures out[UvsEnd(obj)..] == Concat(RecordsFrom(obj.groups, Bin.EffectiveHeader(obj).faceCounts, 0))
  {
    var h := Bin.EffectiveHeader(obj);
    EncodeSections(obj);
    GroupsLayout(obj.groups, h.faceCounts, 0);
    BodySections(out, Headers.Write(h), Concat(obj.vectilers), Concat(obj.normals),
                 NormalFiller(h), Concat(obj.uvs), Bin.EncodeGroups(obj.groups, h.faceCounts, 0).value,
                 Headers.HEADER_SIZE, VerticesEnd(obj), NormalsEnd(obj), FillerEnd(obj), UvsEnd(obj));
  }

  /** The section sizes in Encode's layout: three coordinates per vertex
      and normal, two per UV. */
  lemma SectionSizes(obj: Bin.Binobj)
    requires Bin.Shaped(obj)
    ensures |Concat(obj.vectilers)| == 3 * |obj.vectilers|
    ensures |Concat(obj.normals)| == 3 * |obj.normals|
    ensures |Concat(obj.uvs)| == 2 * |obj.uvs|
  {
    ConcatLength(obj.vectilers, Bin.VERTEX_ARITY);
    ConcatLength(obj.normals, Bin.NORMAL_ARITY);
    ConcatLength(obj.uvs, Bin.UV_ARITY);
  }

  // ---- what Decode reads and skips ----

  /** The bytes record j takes in the stream: nothing when its count is
      zero, otherwise its block and, unless it is the last record, the
      filler the decoder seeks past. */
  function RecordSpan(counts: seq<u32>, j: nat): nat
    requires |counts| == 8 && j < 8
  {
    if counts[j] == 0 then 0
    else FaceGroups.BlockSize(FaceGroups.Order[j], counts[j])
         + (if j < 7 then HandlePadding(U32Mul(counts[j], 2)) as nat else 0)
  }

  /** Where record j starts, counted from the start of record i. */
  function Offset(counts: seq<u32>, i: nat, j: nat): nat
    requires |counts| == 8 && i <= j <= 8
    decreases j - i
  {
    if i == j then 0 else RecordSpan(counts, i) + Offset(counts, i + 1, j)
  }

  /** No record's element count wraps around 32 bits. */
  ghost predicate NoWrap(counts: seq<u32>)
    requires |counts| == 8
  {
    forall j :: 0 <= j < 8 ==> counts[j] * FaceGroups.Arity(FaceGroups.Order[j]) < TWO_32
  }

  /** Every counted record from index i on lies inside n bytes. */
  ghost predicate GroupsFit(counts: seq<u32>, i: nat, n: nat)
    requires |counts| == 8 && i <= 8
  {
    forall j :: i <= j < 8 && counts[j] > 0 ==>
      Offset(counts, i, j) + FaceGroups.BlockSize(FaceGroups.Order[j], counts[j]) <= n
  }

  /** Every counted record from index i on is what the record decoder
      reads at its offset in rest. */
  ghost predicate ReadAt(gs: seq<FaceGroups.FaceGroup>, rest: seq<byte>, counts: seq<u32>, i: nat)
    requires |counts| == 8 && i <= 8
  {
    && |gs| == 8 - i
    && forall j :: i <= j < 8 && counts[j] > 0 ==>
         && Offset(counts, i, j) <= |rest|
         && FaceGroups.Decode(FaceGroups.Order[j], rest[Offset(counts, i, j)..], counts[j]).Ok?
         && FaceGroups.Decode(FaceGroups.Order[j], rest[Offset(counts, i, j)..], counts[j]).value.0 == gs[j - i]
  }

  /** A counted record takes at least two bytes per face. */
  lemma BlockSizePositive(v: FaceGroups.Variant, n: nat)
    requires n > 0
    ensures FaceGroups.BlockSize(v, n) > 0
  {
  }

  /** GroupsFit from i, in terms of GroupsFit from i + 1 on what record i
      leaves; past the end only a run without counted records fits. */
  lemma FitStep(counts: seq<u32>, i: nat, n: nat)
    requires |counts| == 8 && i < 8
    ensures GroupsFit(counts, i, n) <==>
              && (counts[i] > 0 ==> FaceGroups.BlockSize(FaceGroups.Order[i], counts[i]) <= n)
              && (if RecordSpan(counts, i) <= n then GroupsFit(counts, i + 1, n - RecordSpan(counts, i))
                  else GroupsFit(counts, i + 1, 0))
  {
    forall j | i < j < 8 && counts[j] > 0
      ensures FaceGroups.BlockSize(FaceGroups.Order[j], counts[j]) > 0
      ensures Offset(counts, i, j) == RecordSpan(counts, i) + Offset(counts, i + 1, j)
    {
      BlockSizePositive(FaceGroups.Order[j], counts[j]);
    }
  }

  /** ReadAt from i, from record i read at the start of rest and ReadAt
      from i + 1 on what record i leaves. */
  lemma ReadStep(gs: seq<FaceGroups.FaceGroup>, rest: seq<byte>, next: seq<byte>, counts: seq<u32>, i: nat)
    requires |counts| == 8 && i < 8 && |gs| == 8 - i
    requires RecordSpan(counts, i) <= |rest| && next == rest[RecordSpan(counts, i)..]
    requires counts[i] > 0 ==> && FaceGroups.Decode(FaceGroups.Order[i], rest, counts[i]).Ok?
                               && FaceGroups.Decode(FaceGroups.Order[i], rest, counts[i]).value.0 == gs[0]
    requires ReadAt(gs[1..], next, counts, i + 1)
    ensures ReadAt(gs, rest, counts, i)
  {
    forall j | i < j < 8 && counts[j] > 0
      ensures Offset(counts, i, j) <= |rest|
      ensures rest[Offset(counts, i, j)..] == next[Offset(counts, i + 1, j)..]
      ensures gs[j - i] == gs[1..][j - (i + 1)]
    {
    }
    assert rest[Offset(counts, i, i)..] == rest;
  }

  /** ReadAt from i when record i is read and no counted record follows. */
  lemma ReadLast(gs: seq<FaceGroups.FaceGroup>, rest: seq<byte>, counts: seq<u32>, i: nat)
    requires |counts| == 8 && i < 8 && |gs| == 8 - i && counts[i] > 0
    requires && FaceGroups.Decode(FaceGroups.Order[i], rest, counts[i]).Ok?
             && FaceGroups.Decode(FaceGroups.Order[i], rest, counts[i]).value.0 == gs[0]
    requires GroupsFit(counts, i + 1, 0)
    ensures ReadAt(gs, rest, counts, i)
  {
    forall j | i < j < 8 && counts[j] > 0
      ensures false
    {
      BlockSizePositive(FaceGroups.Order[j], counts[j]);
    }
    assert rest[Offset(counts, i, i)..] == rest;
  }

  /** Seeking past filler after the first a bytes is seeking from the start. */
  lemma SkipAfter(rest: seq<byte>, a: nat, n: u32)
    requires a <= |rest|
    ensures Bin.SkipPadding(rest[a..], n) == Skip(rest, a + HandlePadding(n) as nat)
  {
  }

  /** The bytes a counted record leaves: the rest of the block's remainder
      after the skipped filler, or the remainder itself for the last one. */
  lemma PaddedRemainder(rest: seq<byte>, b: nat, c: u32, last: bool)
    requires b <= |rest|
    ensures (if last then rest[b..] else Bin.SkipPadding(rest[b..], U32Mul(c, 2)))
            == Skip(rest, b + (if last then 0 else HandlePadding(U32Mul(c, 2)) as nat))
  {
    if !last {
      SkipAfter(rest, b, U32Mul(c, 2));
    }
  }

  /** A counted record is the variant's group decode followed by the skip. */
  lemma CountedRecord(v: FaceGroups.Variant, rest: seq<byte>, c: u32, last: bool)
    requires c > 0 && c * FaceGroups.Arity(v) < TWO_32
    ensures var d := Bin.DecodeGroup(v, rest, c, last);
            var b := FaceGroups.BlockSize(v, c);
            && (d.Ok? <==> b <= |rest|)
            && (d.Ok? ==> d.value.0 == FaceGroups.Decode(v, rest, c).value.0)
            && (d.Ok? ==> d.value.1 == if last then rest[b..] else Bin.SkipPadding(rest[b..], U32Mul(c, 2)))
  {
    FaceGroups.DecodeConsumes(v, rest, c);
  }

  /** One record of variant v with count c, as DecodeGroup reads it. */
  lemma RecordRead(v: FaceGroups.Variant, rest: seq<byte>, c: u32, last: bool)
    requires c * FaceGroups.Arity(v) < TWO_32
    ensures var d := Bin.DecodeGroup(v, rest, c, last);
            var span := if c == 0 then 0
                        else FaceGroups.BlockSize(v, c) + (if last then 0 else HandlePadding(U32Mul(c, 2)) as nat);
            && (d.Ok? <==> (c > 0 ==> FaceGroups.BlockSize(v, c) <= |rest|))
            && (d.Ok? ==> d.value.1 == Skip(rest, span))
            && (d.Ok? && c > 0 ==> d.value.0 == FaceGroups.Decode(v, rest, c).value.0)
  {
    if c > 0 {
      CountedRecord(v, rest, c, last);
      var b := FaceGroups.BlockSize(v, c);
      if b <= |rest| {
        PaddedRemainder(rest, b, c, last);
      }
    }
  }

  /** One record as DecodeGroups reads it: it fails exactly when a counted
      block does not fit, and otherwise leaves what follows its span. */
  lemma RecordStep(rest: seq<byte>, counts: seq<u32>, i: nat)
    requires |counts| == 8 && i < 8 && NoWrap(counts)
    ensures var d := Bin.DecodeGroup(FaceGroups.Order[i], rest, counts[i], i == 7);
            && (d.Ok? <==> (counts[i] > 0 ==> FaceGroups.BlockSize(FaceGroups.Order[i], counts[i]) <= |rest|))
            && (d.Ok? ==> d.value.1 == Skip(rest, RecordSpan(counts, i)))
            && (d.Ok? && counts[i] > 0 ==> d.value.0 == FaceGroups.Decode(FaceGroups.Order[i], rest, counts[i]).value.0)
  {
    var v, c := FaceGroups.Order[i], counts[i];
    assert c * FaceGroups.Arity(v) < TWO_32;
    RecordRead(v, rest, c, i == 7);
    assert RecordSpan(counts, i)
        == if c == 0 then 0
           else FaceGroups.BlockSize(v, c) + (if i == 7 then 0 else HandlePadding(U32Mul(c, 2)) as nat);
  }

  /** DecodeGroups from i: record i, then the rest from what it leaves. */
  lemma GroupsUnfold(rest: seq<byte>, counts: seq<u32>, i: nat)
    requires |counts| == 8 && i < 8
    ensures var d := Bin.DecodeGroup(FaceGroups.Order[i], rest, counts[i], i == 7);
            && (Bin.DecodeGroups(rest, counts, i).Ok? <==> d.Ok? && Bin.DecodeGroups(d.value.1, counts, i + 1).Ok?)
            && (Bin.DecodeGroups(rest, counts, i).Ok? ==>
                  && Bin.DecodeGroups(rest, counts, i).value[0] == d.value.0
                  && Bin.DecodeGroups(rest, counts, i).value[1..] == Bin.DecodeGroups(d.value.1, counts, i + 1).value)
  {
  }

  /** Decoding the records from index i on succeeds exactly when every
      counted record lies inside what remains, and then each counted
      record is read at its offset: after the blocks before it and the
      filler after each of them but the last. */
  lemma {:induction false} DecodeGroupsConsumes(rest: seq<byte>, counts: seq<u32>, i: nat)
    requires |counts| == 8 && i <= 8 && NoWrap(counts)
    ensures Bin.DecodeGroups(rest, counts, i).Ok? <==> GroupsFit(counts, i, |rest|)
    ensures Bin.DecodeGroups(rest, counts, i).Ok? ==> ReadAt(Bin.DecodeGroups(rest, counts, i).value, rest, counts, i)
    decreases 8 - i
  {
    if i < 8 {
      var span := RecordSpan(counts, i);
      var d := Bin.DecodeGroup(FaceGroups.Order[i], rest, counts[i], i == 7);
      GroupsUnfold(rest, counts, i);
      RecordStep(rest, counts, i);
      FitStep(counts, i, |rest|);
      if d.Ok? {
        var next := d.value.1;
        DecodeGroupsConsumes(next, counts, i + 1);
        if Bin.DecodeGroups(rest, counts, i).Ok? {
          var gs := Bin.DecodeGroups(rest, counts, i).value;
          if span <= |rest| {
            ReadStep(gs, rest, next, counts, i);
          } else {
            ReadLast(gs, rest, counts, i);
          }
        }
      }
    }
  }

  /** Where Decode's reads of a body end, counted from the end of the
      header: the vertex words (four bytes each), the normal bytes, the
      filler skipped after the normals when the normal count is non-zero,
      and the UV words. The element counts are the header's counts times
      the arity, wrapped to 32 bits as the reader computes them. */
  function VerticesRead(h: Headers.Header): nat {
    4 * U32Mul(h.verticeCount, 3)
  }

  function NormalsRead(h: Headers.Header): nat {
    VerticesRead(h) + U32Mul(h.normalCount, 3)
  }

  function FillerSkipped(h: Headers.Header): nat {
    NormalsRead(h) + (if h.normalCount > 0 then HandlePadding(U32Mul(h.normalCount, 3)) as nat else 0)
  }

  function UvsRead(h: Headers.Header): nat {
    FillerSkipped(h) + 4 * U32Mul(h.uvCount, 2)
  }

  /** After the normals, the decoder is at the end of the filler. */
  lemma FillerStep(h: Headers.Header, rest: seq<byte>)
    requires NormalsRead(h) <= |rest|
    ensures var rest2 := rest[NormalsRead(h)..];
            (if h.normalCount > 0 then Bin.SkipPadding(rest2, U32Mul(h.normalCount, Bin.NORMAL_ARITY)) else rest2)
            == Skip(rest, FillerSkipped(h))
  {
  }

  /** After the UVs, the decoder is at the end of the UV section. */
  lemma UvStep(h: Headers.Header, rest: seq<byte>)
    requires Bin.ReadU32Array(Skip(rest, FillerSkipped(h)), h.uvCount, Bin.UV_ARITY).Ok?
    ensures UvsRead(h) == FillerSkipped(h) || UvsRead(h) <= |rest|
    ensures Bin.ReadU32Array(Skip(rest, FillerSkipped(h)), h.uvCount, Bin.UV_ARITY).value.1 == Skip(rest, UvsRead(h))
  {
  }

  /** The sections of a body in the order Decode reads them: the vertex
      array at the start, the normal array after it, the UV array after
      the normal filler, and the records after the UVs. */
  lemma BodySteps(h: Headers.Header, rest: seq<byte>)
    requires Headers.Shaped(h)
    ensures var r1 := Bin.ReadU32Array(rest, h.verticeCount, Bin.VERTEX_ARITY);
            var r2 := Bin.ReadI8Array(Skip(rest, VerticesRead(h)), h.normalCount);
            var r3 := Bin.ReadU32Array(Skip(rest, FillerSkipped(h)), h.uvCount, Bin.UV_ARITY);
            var groups := Bin.DecodeGroups(Skip(rest, UvsRead(h)), h.faceCounts, 0);
            && (Bin.DecodeBody(h, rest).Ok? <==> r1.Ok? && r2.Ok? && r3.Ok? && groups.Ok?)
            && (Bin.DecodeBody(h, rest).Ok? ==>
                  Bin.DecodeBody(h, rest).value == Bin.Binobj(h, r1.value.0, r2.value.0, r3.value.0, groups.value))
  {
    var r1 := Bin.ReadU32Array(rest, h.verticeCount, Bin.VERTEX_ARITY);
    if r1.Ok? {
      assert r1.value.1 == Skip(rest, VerticesRead(h));
      var r2 := Bin.ReadI8Array(Skip(rest, VerticesRead(h)), h.normalCount);
      if r2.Ok? {
        assert r2.value.1 == rest[NormalsRead(h)..];
        FillerStep(h, rest);
        var r3 := Bin.ReadU32Array(Skip(rest, FillerSkipped(h)), h.uvCount, Bin.UV_ARITY);
        if r3.Ok? {
          UvStep(h, rest);
        }
      }
    }
  }

  /** The three array reads succeed exactly when the vertex and normal
      sections are inside the input and hold whole triples and the UV
      section, when it is not empty, ends inside the input. */
  lemma ArraysFit(h: Headers.Header, rest: seq<byte>)
    ensures && Bin.ReadU32Array(rest, h.verticeCount, Bin.VERTEX_ARITY).Ok?
            && Bin.ReadI8Array(Skip(rest, VerticesRead(h)), h.normalCount).Ok?
            && Bin.ReadU32Array(Skip(rest, FillerSkipped(h)), h.uvCount, Bin.UV_ARITY).Ok?
            <==>
            && NormalsRead(h) <= |rest|
            && U32Mul(h.verticeCount, 3) % 3 == 0 && U32Mul(h.normalCount, 3) % 3 == 0
            && (U32Mul(h.uvCount, 2) > 0 ==> UvsRead(h) <= |rest|)
  {
    assert U32Mul(h.uvCount, 2) % 2 == 0;
  }

  /** Decoding a body succeeds exactly when the vertex and normal sections
      are inside the input and hold whole triples, the UV section (when it
      is not empty) ends inside the input, and every counted record fits
      in what follows it; the records are then read at their offsets
      after the UV section. */
  lemma DecodeBodyConsumes(h: Headers.Header, rest: seq<byte>)
    requires Headers.Shaped(h) && NoWrap(h.faceCounts)
    ensures Bin.DecodeBody(h, rest).Ok? <==>
              && NormalsRead(h) <= |rest|
              && U32Mul(h.verticeCount, 3) % 3 == 0 && U32Mul(h.normalCount, 3) % 3 == 0
              && (U32Mul(h.uvCount, 2) > 0 ==> UvsRead(h) <= |rest|)
              && GroupsFit(h.faceCounts, 0, |Skip(rest, UvsRead(h))|)
    ensures Bin.DecodeBody(h, rest).Ok? ==>
              ReadAt(Bin.DecodeBody(h, rest).value.groups, Skip(rest, UvsRead(h)), h.faceCounts, 0)
  {
    BodySteps(h, rest);
    ArraysFit(h, rest);
    DecodeGroupsConsumes(Skip(rest, UvsRead(h)), h.faceCounts, 0);
  }

  /** Decode on an input with a good signature prefix: the body after the
      64 header bytes is read with the header's counts, so it succeeds
      exactly under the body's conditions and reads the records at their
      offsets. */
  lemma DecodeLayout(data: seq<byte>)
    requires Headers.HEADER_SIZE <= |data| && data[..5] == Headers.SIGNATURE_PREFIX
    requires NoWrap(Headers.Read(data[..Headers.HEADER_SIZE]).faceCounts)
    ensures var h := Headers.Read(data[..Headers.HEADER_SIZE]);
            var body := data[Headers.HEADER_SIZE..];
            && (Bin.Decode(data).Ok? <==>
                  && NormalsRead(h) <= |body|
                  && U32Mul(h.verticeCount, 3) % 3 == 0 && U32Mul(h.normalCount, 3) % 3 == 0
                  && (U32Mul(h.uvCount, 2) > 0 ==> UvsRead(h) <= |body|)
                  && GroupsFit(h.faceCounts, 0, |Skip(body, UvsRead(h))|))
            && (Bin.Decode(data).Ok? ==> ReadAt(Bin.Decode(data).value.groups, Skip(body, UvsRead(h)), h.faceCounts, 0))
  {
    var h := Headers.Read(data[..Headers.HEADER_SIZE]);
    assert Bin.Decode(data) == Bin.DecodeBody(h, data[Headers.HEADER_SIZE..]);
    DecodeBodyConsumes(h, data[Headers.HEADER_SIZE..]);
  }

  // ---- the normal filler when there are UVs ----

  /** The first UV word the setter receives is the first four bytes of
      the UV section. */
  lemma FirstUvWord(t: seq<byte>, n: nat)
    requires 0 < n && |t| == 4 * (2 * n)
    ensures |U32sOf(t)| % Bin.UV_ARITY == 0 && 0 < |Gather(U32sOf(t), Bin.UV_ARITY, Bin.UV_ARITY)|
    ensures Gather(U32sOf(t), Bin.UV_ARITY, Bin.UV_ARITY)[0][0] == U32Of(t[..4])
  {
    var ws := U32sOf(t);
    assert |ws| == 2 * n;
    assert |ws| % 2 == 0 && |ws| / 2 == n;
    assert ws[0] == U32Of(t[..4]);
    assert Gather(ws, Bin.UV_ARITY, Bin.UV_ARITY)[0] == ws[0..2];
  }

  /** Where Decode starts reading UVs in Encode's output when the header
      describes the arrays: p bytes into the normal filler. */
  lemma UvReadStart(obj: Bin.Binobj)
    requires Bin.Shaped(obj) && Bin.Agrees(obj, Bin.EffectiveHeader(obj))
    ensures var h := Bin.EffectiveHeader(obj);
            Headers.HEADER_SIZE + FillerSkipped(h)
            == NormalsEnd(obj) + (if h.normalCount > 0 then HandlePadding(U32Mul(h.normalCount, 3)) as nat else 0)
  {
    SectionSizes(obj);
  }

  /** Normals whose count is not a multiple of four are followed by filler. */
  lemma NormalsPadded(n: u32)
    requires n * 3 < TWO_32 && n % 4 != 0
    ensures HandlePadding(U32Mul(n, 3)) > 0
  {
    var q, r := n / 4, n % 4;
    assert U32Mul(n, 3) == 4 * (3 * q) + 3 * r;
  }

  /** The byte Decode takes as the first UV byte is a filler byte when the
      normal count is not a multiple of four. */
  lemma FillerAtUvStart(obj: Bin.Binobj, out: seq<byte>)
    requires Bin.Shaped(obj) && Bin.Agrees(obj, Bin.EffectiveHeader(obj)) && Bin.Encode(obj) == Ok(out)
    requires |obj.normals| % 4 != 0
    ensures FillerSkipped(Bin.EffectiveHeader(obj)) < |out[Headers.HEADER_SIZE..]|
    ensures out[Headers.HEADER_SIZE..][FillerSkipped(Bin.EffectiveHeader(obj))] == FILLER
  {
    var h := Bin.EffectiveHeader(obj);
    EncodeLayout(obj, out);
    UvReadStart(obj);
    NormalsPadded(h.normalCount);
    var p := HandlePadding(U32Mul(h.normalCount, 3));
    var f := NormalFiller(h);
    assert f == WritePadding(p);
    assert out[NormalsEnd(obj)..FillerEnd(obj)] == f;
    assert out[NormalsEnd(obj) + p] == f[p];
  }

  /** A body whose byte at the UV read position is a filler byte decodes
      to a first UV word that starts with that byte. */
  lemma DecodedUvStartsWithFiller(h: Headers.Header, body: seq<byte>, k: nat)
    requires Headers.Shaped(h) && Bin.DecodeBody(h, body).Ok?
    requires 0 < k && U32Mul(h.uvCount, 2) == 2 * k
    requires FillerSkipped(h) < |body| && body[FillerSkipped(h)] == FILLER
    ensures 0 < |Bin.DecodeBody(h, body).value.uvs|
    ensures U32Bytes(Bin.DecodeBody(h, body).value.uvs[0][0])[0] == FILLER
  {
    BodySteps(h, body);
    var t := Skip(body, FillerSkipped(h))[..4 * U32Mul(h.uvCount, 2)];
    FirstUvWord(t, k);
    U32BytesOf(t[..4]);
  }

  /** Decode of bytes that start with a written header reads the rest as
      the body of that header. */
  lemma DecodeAfterHeader(h: Headers.Header, data: seq<byte>)
    requires Headers.Shaped(h) && h.signature == Headers.SIGNATURE
    requires Headers.HEADER_SIZE <= |data| && data[..Headers.HEADER_SIZE] == Headers.Write(h)
    ensures Bin.Decode(data) == Bin.DecodeBody(h, data[Headers.HEADER_SIZE..])
  {
    Headers.ReadWrite(h);
    assert data[..5] == data[..Headers.HEADER_SIZE][..5];
  }

  /** An object its header describes encodes without error. */
  lemma AgreeingEncodes(obj: Bin.Binobj)
    requires Bin.Shaped(obj) && Bin.Agrees(obj, Bin.EffectiveHeader(obj))
    ensures Bin.Encode(obj).Ok?
  {
    var h := Bin.EffectiveHeader(obj);
    assert forall j :: 0 <= j < 8 ==> Bin.GroupAgrees(j, obj.groups[j], h.faceCounts[j]);
  }

  /** When the normal count is not a multiple of four, Encode writes the
      full filler (zeros, then filler bytes) but Decode seeks past only
      the first half, so the UV section is read starting at a filler
      byte: unless the first UV word already begins with that byte, the
      object does not read back. */
  lemma NormalFillerMisreadsUVs(obj: Bin.Binobj)
    requires Bin.Shaped(obj) && Bin.Agrees(obj, Bin.EffectiveHeader(obj))
    requires |obj.normals| % 4 != 0 && |obj.uvs| > 0
    requires U32Bytes(obj.uvs[0][0])[0] != FILLER
    ensures Bin.Encode(obj).Ok?
    ensures Bin.Decode(Bin.Encode(obj).value) != Ok(obj.(header := Bin.EffectiveHeader(obj)))
  {
    var h := Bin.EffectiveHeader(obj);
    AgreeingEncodes(obj);
    var out := Bin.Encode(obj).value;
    var body := out[Headers.HEADER_SIZE..];
    DecodeAfterHeader(h, out);
    FillerAtUvStart(obj, out);
    if Bin.Decode(out).Ok? {
      assert U32Mul(h.uvCount, 2) == 2 * |obj.uvs|;
      DecodedUvStartsWithFiller(h, body, |obj.uvs|);
    }
  }
}

=== FILE: numeric.dfy ===
/** Fixed-width integers of the container and their little-endian byte
    encodings. Single-precision floats are carried as opaque 32-bit words:
    the codec only copies them. */
module Numeric {

  const TWO_32: int := 0x1_0000_0000

  type byte = x: int | 0 <= x < 0x100
  type u32 = x: int | 0 <= x < 0x1_0000_0000
  type i16 = x: int | -0x8000 <= x < 0x8000
  type i8 = x: int | -0x80 <= x < 0x80

  /** Product of a u32 and a small constant, as Go computes it: wrapped
      modulo 2^32. */
  function U32Mul(a: u32, k: nat): (r: u32)
    ensures a * k < TWO_32 ==> r == a * k
    ensures r % 4 == (a * k) % 4
  {
    (a * k) % TWO_32
  }

  /** A Go slice length converted with uint32(len(...)). */
  function U32Len<T>(s: seq<T>): (r: u32)
    ensures |s| < TWO_32 ==> r == |s|
  {
    |s| % TWO_32
  }

  // ---- single values ----

  function U32Bytes(x: u32): (r: seq<byte>)
    ensures |r| == 4
  {
    [x % 0x100, (x / 0x100) % 0x100, (x / 0x1_0000) % 0x100, x / 0x100_0000]
  }

  function U32Of(b: seq<byte>): (r: u32)
    requires |b| == 4
  {
    b[0] as int + 0x100 * b[1] as int + 0x1_0000 * b[2] as int + 0x100_0000 * b[3] as int
  }

  lemma U32RoundTrip(x: u32)
    ensures U32Of(U32Bytes(x)) == x
  {
    var b := U32Bytes(x);
    var q1 := x / 0x100;
    var q2 := q1 / 0x100;
    assert x == b[0] as int + 0x100 * q1;
    assert q1 == b[1] as int + 0x100 * q2;
    assert q2 / 0x100 == x / 0x100_0000;
    assert q2 == b[2] as int + 0x100 * b[3] as int;
  }

  lemma U32BytesOf(b: seq<byte>)
    requires |b| == 4
    ensures U32Bytes(U32Of(b)) == b
  {
    var x := U32Of(b);
    var q1: int := b[1] as int + 0x100 * b[2] as int + 0x1_0000 * b[3] as int;
    var q2: int := b[2] as int + 0x100 * b[3] as int;
    assert x == b[0] as int + 0x100 * q1;
    assert x % 0x100 == b[0] && x / 0x100 == q1;
    assert q1 == b[1] as int + 0x100 * q2;
    assert q1 % 0x100 == b[1] && q1 / 0x100 == q2;
    assert q2 % 0x100 == b[2] && q2 / 0x100 == b[3];
    assert x / 0x1_0000 == q2;
    assert x / 0x100_0000 == b[3];
  }

  /** Two's-complement little-endian encoding of an int16. */
  function I16Bytes(x: i16): (r: seq<byte>)
    ensures |r| == 2
  {
    var u: int := if x < 0 then x as int + 0x1_0000 else x as int;
    [u % 0x100, u / 0x100]
  }

  function I16Of(b: seq<byte>): (r: i16)
    requires |b| == 2
  {
    var u: int := b[0] as int + 0x100 * b[1] as int;
    if u >= 0x8000 then u - 0x1_0000 else u
  }

  lemma I16RoundTrip(x: i16)
    ensures I16Of(I16Bytes(x)) == x
  {
    var u: int := if x < 0 then x as int + 0x1_0000 else x as int;
    assert u == u % 0x100 + 0x100 * (u / 0x100);
  }

  /** Two's-complement encoding of an int8. */
  function I8Byte(x: i8): (r: byte)
  {
    if x < 0 then x as int + 0x100 else x as int
  }

  function I8Of(b: byte): (r: i8)
  {
    if b >= 0x80 then b as int - 0x100 else b as int
  }

  // ---- sequences, in the order binary.Write emits slices ----

  function U32sBytes(ws: seq<u32>): (r: seq<byte>)
    ensures |r| == 4 * |ws|
  {
    if ws == [] then [] else U32Bytes(ws[0]) + U32sBytes(ws[1..])
  }

  function U32sOf(b: seq<byte>): (r: seq<u32>)
    requires |b| % 4 == 0
    ensures 4 * |r| == |b|
  {
    if |b| == 0 then [] else [U32Of(b[..4])] + U32sOf(b[4..])
  }

  lemma {:induction false} U32sRoundTrip(ws: seq<u32>)
    ensures U32sOf(U32sBytes(ws)) == ws
  {
    if ws != [] {
      var b := U32sBytes(ws);
      assert b[..4] == U32Bytes(ws[0]);
      assert b[4..] == U32sBytes(ws[1..]);
      U32RoundTrip(ws[0]);
      U32sRoundTrip(ws[1..]);
    }
  }

  lemma {:induction false} U32sBytesOf(b: seq<byte>)
    requires |b| % 4 == 0
    ensures U32sBytes(U32sOf(b)) == b
    decreases |b|
  {
    if |b| > 0 {
      var ws := U32sOf(b);
      assert ws[0] == U32Of(b[..4]) && ws[1..] == U32sOf(b[4..]);
      U32BytesOf(b[..4]);
      U32sBytesOf(b[4..]);
      assert b == b[..4] + b[4..];
    }
  }

  function I16sBytes(xs: seq<i16>): (r: seq<byte>)
    ensures |r| == 2 * |xs|
  {
    if xs == [] then [] else I16Bytes(xs[0]) + I16sBytes(xs[1..])
  }

  function I16sOf(b: seq<byte>): (r: seq<i16>)
    requires |b| % 2 == 0
    ensures 2 * |r| == |b|
  {
    if |b| == 0 then [] else [I16Of(b[..2])] + I16sOf(b[2..])
  }

  lemma {:induction false} I16sRoundTrip(xs: seq<i16>)
    ensures I16sOf(I16sBytes(xs)) == xs
  {
    if xs != [] {
      var b := I16sBytes(xs);
      assert b[..2] == I16Bytes(xs[0]);
      assert b[2..] == I16sBytes(xs[1..]);
      I16RoundTrip(xs[0]);
      I16sRoundTrip(xs[1..]);
    }
  }

  function I8sBytes(xs: seq<i8>): (r: seq<byte>)
    ensures |r| == |xs|
    ensures forall i :: 0 <= i < |xs| ==> r[i] == I8Byte(xs[i])
  {
    seq(|xs|, i requires 0 <= i < |xs| => I8Byte(xs[i]))
  }

  function I8sOf(b: seq<byte>): (r: seq<i8>)
    ensures |r| == |b|
    ensures forall i :: 0 <= i < |b| ==> r[i] == I8Of(b[i])
  {
    seq(|b|, i requires 0 <= i < |b| => I8Of(b[i]))
  }

  lemma I8sRoundTrip(xs: seq<i8>)
    ensures I8sOf(I8sBytes(xs)) == xs
  {
  }
}

=== FILE: outcome.dfy ===
/** The error kinds of the codec and a failure-compatible result type. */
module Outcome {

  datatype Error =
    | BadSignature    // header prefix is not "Three"
    | IOFailure       // a read could not be satisfied from the stream
    | LengthMismatch  // a face group has different vertex and material counts
    | InvalidLength   // a flat input is not a multiple of the arity
    | TypeMismatch    // a material setter was given something other than int16s

  datatype Result<+T> = Ok(value: T) | Err(error: Error) {

    predicate IsFailure() {
      Err?
    }

    function PropagateFailure<U>(): Result<U>
      requires Err?
    {
      Err(error)
    }

    function Extract(): T
      requires Ok?
    {
      value
    }
  }
}

=== FILE: padding.dfy ===
/** Alignment of variable-length sections to four bytes. */
module Padding {
  import opened Numeric
  import Tuples

  /** Number of filler bytes that bring a section of n bytes to a multiple
      of four (handlePadding). */
  function HandlePadding(n: u32): (r: u32)
    ensures r <= 3
    ensures (n + r) % 4 == 0
    ensures r == 0 <==> n % 4 == 0
    ensures r == (4 - n % 4) % 4
  {
    if n % 4 > 0 then 4 - n % 4 else 0
  }

  /** The filler byte, ASCII '0'. */
  const FILLER: byte := 0x30

  /** Appends k filler bytes, one per loop iteration. */
  function AppendFiller(buf: seq<byte>, k: nat): (r: seq<byte>)
    ensures |r| == |buf| + k
    ensures r[..|buf|] == buf
    ensures forall i :: |buf| <= i < |r| ==> r[i] == FILLER
    decreases k
  {
    if k == 0 then buf else AppendFiller(buf + [FILLER], k - 1)
  }

  /** The bytes writePading emits for a requested padding of p: the slice
      is allocated with length p (all zero) and p filler bytes are then
      appended to it, so 2p bytes go out. */
  function WritePadding(p: u32): (r: seq<byte>)
    ensures |r| == 2 * p
    ensures forall i :: 0 <= i < p ==> r[i] == 0
    ensures forall i :: p <= i < 2 * p ==> r[i] == FILLER
  {
    AppendFiller(Tuples.Zeros(p, 0), p)
  }
}

=== FILE: stream.dfy ===
/** A forward reader over an in-memory byte sequence, represented by the
    bytes that remain unread. Seeking past the end is allowed and is
    represented by the empty remainder: at or beyond the end, a read of
    k > 0 bytes fails and a read of zero bytes succeeds, either way. */
module Stream {
  import opened Numeric
  import opened Outcome

  /** Seek(p, io.SeekCurrent); the result of the seek is never checked. */
  function Skip(rest: seq<byte>, p: nat): (r: seq<byte>)
    ensures p <= |rest| ==> r == rest[p..]
    ensures p >= |rest| ==> r == []
  {
    if p <= |rest| then rest[p..] else []
  }

  /** io.ReadFull of k bytes, as binary.Read performs it. */
  function ReadBytes(rest: seq<byte>, k: nat): (r: Result<(seq<byte>, seq<byte>)>)
    ensures r.Ok? <==> k <= |rest|
    ensures r.Ok? ==> r.value.0 + r.value.1 == rest && |r.value.0| == k
    ensures r.Err? ==> r.error == IOFailure
  {
    if k <= |rest| then Ok((rest[..k], rest[k..])) else Err(IOFailure)
  }

  /** binary.Read into a []uint32 (or []float32) of n elements. */
  function ReadU32s(rest: seq<byte>, n: nat): (r: Result<(seq<u32>, seq<byte>)>)
    ensures r.Ok? <==> 4 * n <= |rest|
    ensures r.Ok? ==> |r.value.0| == n && r.value.1 == rest[4 * n..]
    ensures r.Err? ==> r.error == IOFailure
  {
    var (b, rest') :- ReadBytes(rest, 4 * n);
    Ok((U32sOf(b), rest'))
  }

  /** binary.Read into a []int16 of n elements. */
  function ReadI16s(rest: seq<byte>, n: nat): (r: Result<(seq<i16>, seq<byte>)>)
    ensures r.Ok? <==> 2 * n <= |rest|
    ensures r.Ok? ==> |r.value.0| == n && r.value.1 == rest[2 * n..]
    ensures r.Err? ==> r.error == IOFailure
  {
    var (b, rest') :- ReadBytes(rest, 2 * n);
    Ok((I16sOf(b), rest'))
  }

  /** binary.Read into a []int8 of n elements. */
  function ReadI8s(rest: seq<byte>, n: nat): (r: Result<(seq<i8>, seq<byte>)>)
    ensures r.Ok? <==> n <= |rest|
    ensures r.Ok? ==> |r.value.0| == n && r.value.1 == rest[n..]
    ensures r.Err? ==> r.error == IOFailure
  {
    var (b, rest') :- ReadBytes(rest, n);
    Ok((I8sOf(b), rest'))
  }

  lemma ReadU32sPrefix(ws: seq<u32>, tail: seq<byte>)
    ensures ReadU32s(U32sBytes(ws) + tail, |ws|) == Ok((ws, tail))
  {
    var e := U32sBytes(ws);
    assert (e + tail)[..|e|] == e && (e + tail)[|e|..] == tail;
    U32sRoundTrip(ws);
  }

  lemma ReadI16sPrefix(xs: seq<i16>, tail: seq<byte>)
    ensures ReadI16s(I16sBytes(xs) + tail, |xs|) == Ok((xs, tail))
  {
    var e := I16sBytes(xs);
    assert (e + tail)[..|e|] == e && (e + tail)[|e|..] == tail;
    I16sRoundTrip(xs);
  }

  lemma ReadI8sPrefix(xs: seq<i8>, tail: seq<byte>)
    ensures ReadI8s(I8sBytes(xs) + tail, |xs|) == Ok((xs, tail))
  {
    var e := I8sBytes(xs);
    assert (e + tail)[..|e|] == e && (e + tail)[|e|..] == tail;
    I8sRoundTrip(xs);
  }
}

=== FILE: tuples.dfy ===
/** The numeric array codec: flattening fixed-arity tuples into one slice
    (the Get* helpers) and rebuilding tuples from the input shapes the Set*
    helpers accept.

    Every Get* helper of 3jsbin.go allocates a zeroed slice of arity*n slots and
    writes tuple i at slot stride*i + k. For the vertex, normal and UV arrays
    of the container and for the triangle records the stride equals the arity.
    The quad records use stride 3 with arity 4, so consecutive tuples overlap;
    the model keeps that indexing and proves what it does. */
module Tuples {
  import opened Outcome

  /** The dynamic types a setter switches on. */
  datatype Shape<W> =
    | Flat(items: seq<W>)                    // []T
    | Nested(rows: seq<seq<W>>)              // [][]T
    | Fixed(width: nat, rows: seq<seq<W>>)   // [][width]T
    | Unrecognized                           // any other type

  /** Every tuple has exactly `a` components. */
  ghost predicate Rows<W>(ts: seq<seq<W>>, a: nat) {
    forall i :: 0 <= i < |ts| ==> |ts[i]| == a
  }

  /** What Go's type system and bounds checks guarantee of a setter input:
      a [][width]T value has rows of that width, and a [][]T value whose
      rows are shorter than the arity would panic. */
  ghost predicate Admissible<W>(input: Shape<W>, a: nat) {
    match input
    case Nested(rows) => forall i :: 0 <= i < |rows| ==> |rows[i]| >= a
    case Fixed(w, rows) => Rows(rows, w)
    case _ => true
  }

  function Zeros<W>(n: nat, zero: W): (r: seq<W>)
    ensures |r| == n
  {
    seq(n, _ => zero)
  }

  /** `buf` with `row` copied in at offset `off`. */
  function Overwrite<W>(buf: seq<W>, off: nat, row: seq<W>): (r: seq<W>)
    requires off + |row| <= |buf|
    ensures |r| == |buf|
    ensures forall j :: 0 <= j < |buf| ==>
              r[j] == if off <= j < off + |row| then row[j - off] else buf[j]
  {
    buf[..off] + row + buf[off + |row|..]
  }

  lemma MulMono(a: nat, x: nat, y: nat)
    requires x <= y
    ensures a * x <= a * y
  {
  }

  /** Tuple i's window [s*i, s*i + a) lies inside a buffer of a*n slots. */
  lemma WindowFits(a: nat, s: nat, i: nat, n: nat)
    requires s <= a && i < n
    ensures s * i + a <= a * n
  {
    MulMono(i, s, a);
    MulMono(a, i + 1, n);
  }

  lemma MulDiv(a: nat, n: nat)
    requires 0 < a
    ensures (a * n) % a == 0 && (a * n) / a == n
  {
    var q, r := (a * n) / a, (a * n) % a;
    assert a * n == a * q + r && 0 <= r < a;
    assert a * (n - q) == r;
    if n - q >= 1 {
      MulMono(a, 1, n - q);
    } else if n - q <= -1 {
      MulMono(a, 1, q - n);
    }
  }

  lemma DivExact(n: nat, a: nat)
    requires 0 < a && n % a == 0
    ensures a * (n / a) == n
  {
  }

  // ---- flattening (Get*) ----

  /** The Get* loop from tuple i onwards: tuple i overwrites slots
      s*i .. s*i + a - 1 of the buffer. */
  function ScatterFrom<W>(buf: seq<W>, ts: seq<seq<W>>, a: nat, s: nat, i: nat): (r: seq<W>)
    requires Rows(ts, a) && s <= a && |buf| == a * |ts| && i <= |ts|
    ensures |r| == |buf|
    decreases |ts| - i
  {
    if i == |ts| then buf
    else
      WindowFits(a, s, i, |ts|);
      ScatterFrom(Overwrite(buf, s * i, ts[i]), ts, a, s, i + 1)
  }

  /** Flattening of tuples with arity `a` at stride `s` into a zeroed slice. */
  function Scatter<W>(ts: seq<seq<W>>, a: nat, s: nat, zero: W): (r: seq<W>)
    requires Rows(ts, a) && s <= a
    ensures |r| == a * |ts|
  {
    ScatterFrom(Zeros(a * |ts|, zero), ts, a, s, 0)
  }

  /** Reference value of slot j once the first i tuples have been written:
      the last tuple whose window covers j wins, untouched slots stay zero. */
  ghost function Slot<W>(ts: seq<seq<W>>, a: nat, s: nat, zero: W, i: nat, j: int): W
    requires Rows(ts, a) && i <= |ts|
  {
    if i == 0 then zero
    else if s * (i - 1) <= j < s * (i - 1) + a then ts[i - 1][j - s * (i - 1)]
    else Slot(ts, a, s, zero, i - 1, j)
  }

  lemma {:induction false} ScatterFromSlots<W>(buf: seq<W>, ts: seq<seq<W>>, a: nat, s: nat, zero: W, i: nat)
    requires Rows(ts, a) && s <= a && |buf| == a * |ts| && i <= |ts|
    requires forall j :: 0 <= j < |buf| ==> buf[j] == Slot(ts, a, s, zero, i, j)
    ensures forall j :: 0 <= j < |buf| ==>
              ScatterFrom(buf, ts, a, s, i)[j] == Slot(ts, a, s, zero, |ts|, j)
    decreases |ts| - i
  {
    if i < |ts| {
      WindowFits(a, s, i, |ts|);
      var next := Overwrite(buf, s * i, ts[i]);
      assert forall j :: 0 <= j < |next| ==> next[j] == Slot(ts, a, s, zero, i + 1, j);
      ScatterFromSlots(next, ts, a, s, zero, i + 1);
    }
  }

  /** Every slot of the flattened slice holds what the last tuple covering it
      wrote there, or zero. */
  lemma ScatterSlots<W>(ts: seq<seq<W>>, a: nat, s: nat, zero: W)
    requires Rows(ts, a) && s <= a
    ensures forall j :: 0 <= j < a * |ts| ==>
              Scatter(ts, a, s, zero)[j] == Slot(ts, a, s, zero, |ts|, j)
  {
    ScatterFromSlots(Zeros(a * |ts|, zero), ts, a, s, zero, 0);
  }

  /** Tuple-major concatenation: the flattening the format intends. */
  function Concat<W>(ts: seq<seq<W>>): (r: seq<W>)
  {
    if ts == [] then [] else ts[0] + Concat(ts[1..])
  }

  lemma {:induction false} ConcatLength<W>(ts: seq<seq<W>>, a: nat)
    requires Rows(ts, a)
    ensures |Concat(ts)| == a * |ts|
  {
    if ts != [] {
      ConcatLength(ts[1..], a);
    }
  }

  lemma {:induction false} ConcatSnoc<W>(ts: seq<seq<W>>, x: seq<W>)
    ensures Concat(ts + [x]) == Concat(ts) + x
  {
    if ts == [] {
      assert [x][1..] == [];
    } else {
      assert (ts + [x])[1..] == ts[1..] + [x];
      ConcatSnoc(ts[1..], x);
    }
  }

  lemma {:induction false} ScatterFromDense<W>(buf: seq<W>, ts: seq<seq<W>>, a: nat, zero: W, i: nat)
    requires Rows(ts, a) && |buf| == a * |ts| && i <= |ts|
    requires buf == Concat(ts[..i]) + Zeros(a * (|ts| - i), zero)
    ensures ScatterFrom(buf, ts, a, a, i) == Concat(ts)
    decreases |ts| - i
  {
    ConcatLength(ts[..i], a);
    if i == |ts| {
      assert ts[..i] == ts;
    } else {
      WindowFits(a, a, i, |ts|);
      var next := Overwrite(buf, a * i, ts[i]);
      assert ts[..i + 1] == ts[..i] + [ts[i]];
      ConcatSnoc(ts[..i], ts[i]);
      assert a * (|ts| - i) == a + a * (|ts| - (i + 1));
      assert next == Concat(ts[..i + 1]) + Zeros(a * (|ts| - (i + 1)), zero);
      ScatterFromDense(next, ts, a, zero, i + 1);
    }
  }

  /** With stride equal to arity, the Get* flattening is exactly the
      tuple-major concatenation. */
  lemma ScatterDense<W>(ts: seq<seq<W>>, a: nat, zero: W)
    requires Rows(ts, a)
    ensures Scatter(ts, a, a, zero) == Concat(ts)
  {
    assert ts[..0] == [];
    ScatterFromDense(Zeros(a * |ts|, zero), ts, a, zero, 0);
  }

  // ---- unflattening (Set* from a flat slice) ----

  /** Tuple i of a flat slice: components s*i .. s*i + a - 1. */
  function Window<W>(t: seq<W>, a: nat, s: nat, i: nat): (r: seq<W>)
    requires 0 < a && s <= a && |t| % a == 0 && i < |t| / a
    ensures |r| == a
  {
    WindowFits(a, s, i, |t| / a);
    DivExact(|t|, a);
    t[s * i .. s * i + a]
  }

  function Gather<W>(t: seq<W>, a: nat, s: nat): (r: seq<seq<W>>)
    requires 0 < a && s <= a && |t| % a == 0
    ensures |r| == |t| / a && Rows(r, a)
  {
    seq(|t| / a, i requires 0 <= i < |t| / a => Window(t, a, s, i))
  }

  /** A Set* helper on one tuple field: returns the new field value, or the
      error that leaves the field unchanged. An unrecognised input type, or
      a fixed-width slice of another width, is silently accepted and keeps
      `current`. */
  function Assign<W>(current: seq<seq<W>>, input: Shape<W>, a: nat, s: nat): (r: Result<seq<seq<W>>>)
    requires 0 < a && s <= a && Admissible(input, a)
    ensures r.Err? <==> input.Flat? && |input.items| % a != 0
    ensures r.Err? ==> r.error == InvalidLength
    ensures input.Unrecognized? || (input.Fixed? && input.width != a) ==> r == Ok(current)
    ensures r.Ok? && input.Flat? ==> |r.value| == |input.items| / a && Rows(r.value, a)
    ensures r.Ok? && input.Nested? ==> |r.value| == |input.rows| && Rows(r.value, a)
    ensures input.Fixed? && input.width == a ==> r == Ok(input.rows)
  {
    match input
    case Flat(t) =>
      if |t| % a != 0 then Err(InvalidLength) else Ok(Gather(t, a, s))
    case Nested(rows) =>
      Ok(seq(|rows|, i requires 0 <= i < |rows| => rows[i][..a]))
    case Fixed(w, rows) =>
      if w == a then Ok(rows) else Ok(current)
    case Unrecognized =>
      Ok(current)
  }

  // ---- stride == arity: Get and Set are inverse ----

  lemma {:induction false} ConcatWindow<W>(ts: seq<seq<W>>, a: nat, i: nat)
    requires Rows(ts, a) && i < |ts|
    ensures a * i + a <= |Concat(ts)|
    ensures Concat(ts)[a * i .. a * i + a] == ts[i]
  {
    ConcatLength(ts, a);
    WindowFits(a, a, i, |ts|);
    ConcatLength(ts[1..], a);
    if i > 0 {
      ConcatWindow(ts[1..], a, i - 1);
      assert a * i == a + a * (i - 1);
    }
  }

  /** Set(Get(ts)) == ts when stride equals arity. */
  lemma GatherConcat<W>(ts: seq<seq<W>>, a: nat)
    requires 0 < a && Rows(ts, a)
    ensures |Concat(ts)| % a == 0
    ensures Gather(Concat(ts), a, a) == ts
  {
    ConcatLength(ts, a);
    MulDiv(a, |ts|);
    forall i | 0 <= i < |ts|
      ensures Gather(Concat(ts), a, a)[i] == ts[i]
    {
      ConcatWindow(ts, a, i);
    }
  }

  /** Dropping the first tuple of a flat slice drops the first gathered tuple. */
  lemma GatherTail<W>(t: seq<W>, a: nat)
    requires 0 < a && |t| % a == 0 && |t| > 0
    ensures |t| >= a && |t[a..]| % a == 0
    ensures Gather(t, a, a)[0] == t[..a]
    ensures Gather(t, a, a)[1..] == Gather(t[a..], a, a)
  {
    var n := |t| / a;
    DivExact(|t|, a);
    assert n >= 1;
    MulMono(a, 1, n);
    assert |t[a..]| == a * (n - 1);
    MulDiv(a, n - 1);
    var g, g' := Gather(t, a, a), Gather(t[a..], a, a);
    assert |g'| == n - 1;
    forall i | 0 <= i < n - 1
      ensures g[1..][i] == g'[i]
    {
      assert a * (i + 1) == a + a * i;
      WindowFits(a, a, i, n - 1);
    }
  }

  /** Get(Set(t)) == t when stride equals arity. */
  lemma {:induction false} ConcatGather<W>(t: seq<W>, a: nat)
    requires 0 < a && |t| % a == 0
    ensures Concat(Gather(t, a, a)) == t
    decreases |t|
  {
    if |t| > 0 {
      GatherTail(t, a);
      ConcatGather(t[a..], a);
      assert t == t[..a] + t[a..];
    }
  }

  /** Flat, nested and fixed-width inputs describing the same tuples set the
      same field, when stride equals arity. */
  lemma ShapesAgree<W>(current: seq<seq<W>>, f: seq<W>, a: nat)
    requires 0 < a && |f| % a == 0
    ensures Admissible(Nested(Gather(f, a, a)), a) && Admissible(Fixed(a, Gather(f, a, a)), a)
    ensures Assign(current, Flat(f), a, a) == Assign(current, Nested(Gather(f, a, a)), a, a)
    ensures Assign(current, Flat(f), a, a) == Assign(current, Fixed(a, Gather(f, a, a)), a, a)
  {
    var g := Gather(f, a, a);
    var n := Assign(current, Nested(g), a, a).value;
    assert forall i :: 0 <= i < |g| ==> g[i][..a] == g[i];
    assert n == g;
  }

  // ---- stride 3, arity 4: the quad records ----

  lemma {:induction false} QuadSlotLow<W>(ts: seq<seq<W>>, zero: W, m: nat, i: nat, k: nat)
    requires Rows(ts, 4) && i < m <= |ts| && k < 3
    ensures Slot(ts, 4, 3, zero, m, 3 * i + k) == ts[i][k]
  {
    if m > i + 1 {
      QuadSlotLow(ts, zero, m - 1, i, k);
    }
  }

  lemma {:induction false} QuadSlotHigh<W>(ts: seq<seq<W>>, zero: W, m: nat, j: int)
    requires Rows(ts, 4) && m <= |ts| && 3 * m < j
    ensures Slot(ts, 4, 3, zero, m, j) == zero
  {
    if m > 0 {
      QuadSlotHigh(ts, zero, m - 1, j);
    }
  }

  /** What the quad Get* helpers produce: slot 3i+k for k < 3 holds
      component k of tuple i (a later tuple overwrites component 3 of the
      earlier one), slot 3n holds the last tuple's component 3, and slots
      3n+1 .. 4n-1 are never written. */
  lemma QuadScatter<W>(ts: seq<seq<W>>, zero: W)
    requires Rows(ts, 4)
    ensures forall i, k :: 0 <= i < |ts| && 0 <= k < 3 ==>
              Scatter(ts, 4, 3, zero)[3 * i + k] == ts[i][k]
    ensures |ts| > 0 ==> Scatter(ts, 4, 3, zero)[3 * |ts|] == ts[|ts| - 1][3]
    ensures forall j :: 3 * |ts| < j < 4 * |ts| ==> Scatter(ts, 4, 3, zero)[j] == zero
  {
    ScatterSlots(ts, 4, 3, zero);
    forall i, k | 0 <= i < |ts| && 0 <= k < 3
      ensures Scatter(ts, 4, 3, zero)[3 * i + k] == ts[i][k]
    {
      QuadSlotLow(ts, zero, |ts|, i, k);
    }
    forall j | 3 * |ts| < j < 4 * |ts|
      ensures Scatter(ts, 4, 3, zero)[j] == zero
    {
      QuadSlotHigh(ts, zero, |ts|, j);
    }
  }

  /** The first three components of every quad. */
  function Heads<W>(ts: seq<seq<W>>): (r: seq<seq<W>>)
    requires Rows(ts, 4)
    ensures |r| == |ts| && Rows(r, 3)
  {
    seq(|ts|, i requires 0 <= i < |ts| => ts[i][..3])
  }

  /** The first 3n words of a flattened quad list are the quads' first
      three indices, one quad after the other. */
  lemma QuadHeadsPrefix<W>(ts: seq<seq<W>>, zero: W)
    requires Rows(ts, 4)
    ensures 3 * |ts| <= |Scatter(ts, 4, 3, zero)|
    ensures Scatter(ts, 4, 3, zero)[..3 * |ts|] == Concat(Heads(ts))
  {
    QuadScatter(ts, zero);
    var hs := Heads(ts);
    ConcatLength(hs, 3);
    var r, c := Scatter(ts, 4, 3, zero), Concat(hs);
    forall j | 0 <= j < 3 * |ts|
      ensures r[j] == c[j]
    {
      var i, k := j / 3, j % 3;
      assert j == 3 * i + k && i < |ts|;
      ConcatWindow(hs, 3, i);
      assert c[j] == c[3 * i .. 3 * i + 3][k] == hs[i][k];
      assert hs[i][k] == ts[i][k];
    }
  }

  /** The stride-3 flattening of a non-empty quad list in closed form: the
      first three indices of every quad, the last quad's fourth index,
      then zeros. */
  lemma QuadScatterForm<W>(ts: seq<seq<W>>, zero: W)
    requires Rows(ts, 4) && |ts| > 0
    ensures Scatter(ts, 4, 3, zero) == Concat(Heads(ts)) + [ts[|ts| - 1][3]] + Zeros(|ts| - 1, zero)
  {
    QuadScatter(ts, zero);
    QuadHeadsPrefix(ts, zero);
    var n := |ts|;
    var r := Scatter(ts, 4, 3, zero);
    assert r[3 * n + 1..] == Zeros(n - 1, zero);
    assert r == r[..3 * n] + [r[3 * n]] + r[3 * n + 1..];
  }

  /** Consecutive quads share an index: the 4th of one is the 1st of the next. */
  ghost predicate Chained<W>(ts: seq<seq<W>>)
    requires Rows(ts, 4)
  {
    forall i :: 0 <= i < |ts| - 1 ==> ts[i][3] == ts[i + 1][0]
  }

  /** Set(Get(q)) on a quad field keeps components 0..2 of every tuple; the
      4th component becomes the 1st of the next tuple, except for the last
      tuple, which keeps its own. */
  lemma QuadGatherScatter<W>(ts: seq<seq<W>>, zero: W)
    requires Rows(ts, 4)
    ensures |Scatter(ts, 4, 3, zero)| % 4 == 0
    ensures |Gather(Scatter(ts, 4, 3, zero), 4, 3)| == |ts|
    ensures forall i :: 0 <= i < |ts| ==>
              Gather(Scatter(ts, 4, 3, zero), 4, 3)[i]
              == ts[i][..3] + [if i + 1 < |ts| then ts[i + 1][0] else ts[i][3]]
  {
    var f := Scatter(ts, 4, 3, zero);
    QuadScatter(ts, zero);
    var g := Gather(f, 4, 3);
    forall i | 0 <= i < |ts|
      ensures g[i] == ts[i][..3] + [if i + 1 < |ts| then ts[i + 1][0] else ts[i][3]]
    {
      assert g[i] == f[3 * i .. 3 * i + 4];
      assert f[3 * i + 3] == if i + 1 < |ts| then ts[i + 1][0] else ts[i][3] by {
        if i + 1 < |ts| {
          assert f[3 * (i + 1) + 0] == ts[i + 1][0];
        }
      }
    }
  }

  /** The quad round trip Set(Get(q)) == q holds exactly for chained tuples. */
  lemma QuadRoundTripIff<W>(ts: seq<seq<W>>, zero: W)
    requires Rows(ts, 4)
    ensures |Scatter(ts, 4, 3, zero)| % 4 == 0
    ensures Gather(Scatter(ts, 4, 3, zero), 4, 3) == ts <==> Chained(ts)
  {
    var g := Gather(Scatter(ts, 4, 3, zero), 4, 3);
    QuadGatherScatter(ts, zero);
    assert forall i :: 0 <= i < |ts| ==> ts[i] == ts[i][..3] + [ts[i][3]];
    if g == ts {
      forall i | 0 <= i < |ts| - 1
        ensures ts[i][3] == ts[i + 1][0]
      {
        assert g[i][3] == ts[i + 1][0];
      }
    }
    if Chained(ts) {
      forall i | 0 <= i < |ts|
        ensures g[i] == ts[i]
      {
        var last := if i + 1 < |ts| then ts[i + 1][0] else ts[i][3];
        assert g[i] == ts[i][..3] + [last];
        if i + 1 < |ts| {
          assert ts[i][3] == ts[i + 1][0];
        }
        assert last == ts[i][3];
        assert ts[i] == ts[i][..3] + [ts[i][3]];
      }
    }
  }

  /** With stride 3, a flat input and the same components given as
      fixed-width tuples do not set the same quads. */
  lemma QuadShapesDisagree()
    ensures Assign([], Flat([0, 1, 2, 3, 4, 5, 6, 7]), 4, 3) == Ok([[0, 1, 2, 3], [3, 4, 5, 6]])
    ensures Assign([], Fixed(4, [[0, 1, 2, 3], [4, 5, 6, 7]]), 4, 3) == Ok([[0, 1, 2, 3], [4, 5, 6, 7]])
  {
    var f := [0, 1, 2, 3, 4, 5, 6, 7];
    var g := Gather(f, 4, 3);
    assert |g| == 2;
    assert g[0] == f[0..4] == [0, 1, 2, 3];
    assert g[1] == f[3..7] == [3, 4, 5, 6];
    assert g == [[0, 1, 2, 3], [3, 4, 5, 6]];
  }
}
